=== FILE: README.md ===
# AI code helper: chat client and input guardrail, modelled in Dafny

This project models the logic of an AI chat application. The frontend is in Vue, and a
Java backend validates input.

- **The conversation cache (`api/conversations.js`).** Local storage holds two keys: an
  ordered list of conversations and a map from conversation id to that conversation's
  messages.
  - Four local operations change the cache: save (upsert or prepend), update (merge only
    when the id is present), delete (drops the conversation and its messages), and save
    message (appends and refreshes the conversation's preview).
  - Six exported wrappers ask the backend first. When the remote call fails, each one falls
    back to the local cache.
  - Storage is an immutable `Store` snapshot. Each key is absent, corrupt (does not parse)
    or stored.
  - A remote call is reduced to its outcome, `Ok(value)` or `Err`.
  - The generated id and each clock read are parameters, one parameter per read.
- **The request utilities (`api/utils.js`).**
  - `retry` runs over the sequence of outcomes its successive calls would have. It returns
    the number of calls, the waits between them and how it settles.
  - `getErrorMessage` is a classifier with fixed precedence.
  - `handleApiResponse` builds the error for a non-ok response.
  - `buildQueryString` and `buildApiUrl` build URLs. The percent-encoder is an opaque
    function.
- **The chat turn (`composables/useChat.js`).** The state is the message list, the loading
  flag, the chat id and the current stream. `sendMessage`, its four stream callbacks,
  `cleanup`, `startNewChat` and `initializeChat` are pure transitions.
- **The stream dispatch (`api/chat.js`, `createChatSSE`).** An `EventSource` is reduced to
  its `readyState` and whether the connect timer is still armed. `Dispatch` takes one event
  (timer, open, message, error, `end`) and returns which callback runs and the state that
  follows.
  - As in the HTML Standard's server-sent events section, a CLOSED source delivers no more
    events. Only the JavaScript timer can still fire, and its handler checks `readyState`
    first.
- **The input guardrail (`SafeInputGuardrail.validate`).** The input is lower-cased and
  split as Java's `split("\\W+")` does, then rejected at the first token that is "kill" or
  "evil".
  - The model follows `split` exactly. A leading empty piece is kept, trailing empty pieces
    are dropped, and an input with no match is returned whole.
  - The main theorem says the guardrail rejects exactly the inputs in which "kill" or "evil"
    stands as a whole word.

Files:
- `base.dfy`: `Option`, `Result`.
- `strings.dfy`: prefix, containment, join/split, decimal printing.
- `api_utils.dfy`, `conversations.dfy`, `chat_stream.dfy`, `chat_turn.dfy`, `guardrail.dfy`:
  one module per source file.

The code does not reconnect: an error, `end` or a timeout closes the source, and the only
backoff is in `retry`. Stale callbacks are harmless because a closed `EventSource`
delivers nothing (`ChatStream.ClosedIsSilent`, `ChatTurn.ClosedStreamIgnored`).

## Model

| member | source | states |
|---|---|---|
| `Conversations.LocalConversations` | ai-code-helper-frontend/src/api/conversations.js:130-138 | the stored list, or `[]` when the key is missing or does not parse; never fails |
| `Conversations.LocalMessages` | ai-code-helper-frontend/src/api/conversations.js:186-195 | the conversation's stored list, or `[]` when the map is missing, does not parse or lacks the id; never fails |
| `Conversations.FindIndex` | ai-code-helper-frontend/src/api/conversations.js:143 | the first position holding the id, -1 exactly when no entry has it |
| `Conversations.WithoutId` | ai-code-helper-frontend/src/api/conversations.js:171 | the filtered list holds exactly the entries of the list whose id differs, and is no longer |
| `Conversations.WithoutIdAppend` | ai-code-helper-frontend/src/api/conversations.js:171 | filtering distributes over concatenation, so the survivors keep their relative order |
| `Conversations.WithoutIdAbsent` | ai-code-helper-frontend/src/api/conversations.js:168-172 | filtering out an id the list does not hold leaves the list as it is |
| `Conversations.Overlay` | ai-code-helper-frontend/src/api/conversations.js:160 | the spread `{...c, ...patch}`: each field present in the patch (id, title, preview, both times) wins, each absent one keeps the old value |
| `Conversations.SaveConversationToLocal` | ai-code-helper-frontend/src/api/conversations.js:140-153 | a known id is replaced in place (same length, every other position unchanged), a new one is prepended at index 0; the conversation is listed afterwards and the messages key is untouched |
| `Conversations.UpdateConversationInLocal` | ai-code-helper-frontend/src/api/conversations.js:155-166 | an unknown id leaves storage exactly as it was (never inserts); a known one gets the patch overlaid at its position, with all other entries unchanged |
| `Conversations.DeleteConversationFromLocal` | ai-code-helper-frontend/src/api/conversations.js:168-184 | no entry with the id remains, the survivors are the filtered list, the id's messages read back as `[]` and every other conversation's messages are unchanged; when the id has no stored messages the message key is not written, so a corrupt map stays corrupt |
| `Conversations.SaveMessageToLocal` | ai-code-helper-frontend/src/api/conversations.js:197-217 | the message is appended to its conversation's list (created if missing), other lists untouched; a listed conversation gets `lastMessage` = text, else content, else "" and `updatedAt` = the message time; an unlisted one leaves the conversation key as it was; a corrupt message map makes the write a no-op |
| `Conversations.SaveConversationIdempotent` | ai-code-helper-frontend/src/api/conversations.js:140-153 | saving the same conversation twice equals saving it once |
| `Conversations.UpdateConversationIdempotent` | ai-code-helper-frontend/src/api/conversations.js:155-166 | applying the same patch twice equals applying it once |
| `Conversations.DeleteConversationIdempotent` | ai-code-helper-frontend/src/api/conversations.js:168-184 | deleting twice equals deleting once |
| `Conversations.GetConversations` | ai-code-helper-frontend/src/api/conversations.js:4-14 | remote list on success, otherwise the local list (`[]` when missing or corrupt); storage never changes |
| `Conversations.CreateConversation` | ai-code-helper-frontend/src/api/conversations.js:17-45 | remote record on success, otherwise `{generated id, title or '新对话', lastMessage '', createdAt, updatedAt}`, the two times from two separate clock reads that need not agree; either way it is saved locally and listed afterwards |
| `Conversations.UpdateConversation` | ai-code-helper-frontend/src/api/conversations.js:47-68 | success overlays and returns the remote record; failure overlays `{id, ...updates, updatedAt: now}` and returns `{id, ...updates}`, an `id` inside `updates` winning; messages untouched |
| `Conversations.DeleteConversation` | ai-code-helper-frontend/src/api/conversations.js:71-83 | returns true and deletes locally whatever the remote outcome |
| `Conversations.GetConversationMessages` | ai-code-helper-frontend/src/api/conversations.js:86-96 | remote list on success, otherwise the local list (`[]` when missing or corrupt); storage never changes |
| `Conversations.SaveMessageToConversation` | ai-code-helper-frontend/src/api/conversations.js:99-120 | remote message on success, otherwise the message with the generated id (overriding the caller's) and `now`; the returned message is appended locally and reads back unless the map is corrupt |
| `Conversations.OfflineMessagesReadBack` | ai-code-helper-frontend/src/api/conversations.js:113-118 | while the backend is down, saving a run of messages and then reading the conversation returns the earlier messages followed by every saved one, in order, each with its generated id: no write is lost, provided the stored message map parses (a corrupt map makes every save a silent no-op) |
| `ApiUtils.HandleApiResponse` | ai-code-helper-frontend/src/api/utils.js:47-59 | succeeds exactly for a 2xx status, with the body; otherwise fails with an `Error` whose message is `HTTP <status>: <body>` |
| `ApiUtils.ErrorMessage` | ai-code-helper-frontend/src/api/utils.js:97-115 | the fixed precedence: a `TypeError` mentioning `fetch` gives the network text; else a `timeout`/`TIMEOUT` marker the timeout text; else `ECONNREFUSED`/`connection refused` the refused text; else `HTTP 5` the server text; else the raw message, or the unknown text when it is empty; never empty |
| `ApiUtils.HttpPrefixShape` | ai-code-helper-frontend/src/api/utils.js:50 | for a three-digit status the fixed part is ten characters: `HTTP `, the hundreds digit and two more digits, `: ` |
| `ApiUtils.MarkerDivergesFromHttpPrefix` | ai-code-helper-frontend/src/api/utils.js:102-106 | none of the timeout or refused-connection markers can start inside the `HTTP <status>: ` prefix |
| `ApiUtils.ServerMarkerInHttpPrefix` | ai-code-helper-frontend/src/api/utils.js:110 | an HTTP error message contains `HTTP 5` exactly when the status is 5xx or the body contains it |
| `ApiUtils.HttpErrorClassification` | ai-code-helper-frontend/src/api/utils.js:110-112 | a non-ok response whose body has none of the earlier markers is classified as the server error exactly when the status is 5xx or the body mentions `HTTP 5`, and otherwise shows its `HTTP <status>: <body>` message |
| `ApiUtils.RetryFrom` | ai-code-helper-frontend/src/api/utils.js:71-87 | from a given attempt on: every call before the last threw, a resolved run ends at a success, a rejected run used every attempt and carries the last error, waits follow `delay * 2^(attempt-1)` |
| `ApiUtils.Retry` | ai-code-helper-frontend/src/api/utils.js:68-90 | at most `maxAttempts` calls, no call after the first success, resolves exactly when one of the allowed attempts succeeds, rethrows the final attempt's error otherwise, one wait fewer than calls; `maxAttempts <= 0` makes no call and rejects with undefined |
| `ApiUtils.BackoffTotal` | ai-code-helper-frontend/src/api/utils.js:82 | the waits of n failed attempts add up to `delay * (2^n - 1)` |
| `ApiUtils.ConfiguredRetryAllFail` | ai-code-helper-frontend/src/api/config.js:21-25 | with 3 attempts, 1000 ms and factor 2, three failures make three calls, wait 1000 then 2000 ms and reject with the third error |
| `ApiUtils.ConfiguredRetryThirdSucceeds` | ai-code-helper-frontend/src/api/utils.js:71-85 | failing twice then succeeding waits 1000 then 2000 ms, 3000 ms in all, and resolves with the third result |
| `ApiUtils.KeptParams` | ai-code-helper-frontend/src/api/utils.js:125-129 | the kept entries are no more than the given ones |
| `ApiUtils.KeptParamsAppend` | ai-code-helper-frontend/src/api/utils.js:125-129 | keeping distributes over concatenation, so kept entries stay in the order given |
| `ApiUtils.KeptParamsSingle` | ai-code-helper-frontend/src/api/utils.js:126-128 | one entry is kept as `(name, String(value))` exactly when its value is neither `null` nor `undefined` |
| `ApiUtils.KeptParamsEmpty` | ai-code-helper-frontend/src/api/utils.js:125-129 | nothing is kept exactly when every value is `null` or `undefined` |
| `ApiUtils.BuildQueryString` | ai-code-helper-frontend/src/api/utils.js:122-132 | the query string is empty exactly when every value is `null` or `undefined` |
| `ApiUtils.QueryStringRoundTrip` | ai-code-helper-frontend/src/api/utils.js:122-132 | reading the query string back (split on `&`, then at the first `=`) yields exactly the encoded name/value pairs of the non-null entries, in the order the entries are given (`Object.entries` order) |
| `ApiUtils.BuildApiUrl` | ai-code-helper-frontend/src/api/utils.js:140-149 | the URL starts with base + endpoint and equals it exactly when there is no value; otherwise a `?` follows, then the query string |
| `ChatStream.Create` | ai-code-helper-frontend/src/api/chat.js:21-32 | a new source is CONNECTING with the connect timer armed |
| `ChatStream.StreamUrl` | ai-code-helper-frontend/src/api/chat.js:18 | the URL is exactly the chat endpoint with the raw memory id and `&message=`, followed directly by the encoded message |
| `ChatStream.ErrorText` | ai-code-helper-frontend/src/api/chat.js:56-61 | the "cannot reach the backend" text exactly for a plain `error` event on a CLOSED source, the generic text otherwise |
| `ChatStream.Close` | ai-code-helper-frontend/src/api/chat.js:67 | closing sets CLOSED and does not touch the connect timer |
| `ChatStream.Dispatch` | ai-code-helper-frontend/src/api/chat.js:24-78 | timer: close and `onTimeout` only while still armed and CONNECTING; open: timer cleared, OPEN, `onOpen`; message: data passed unchanged, state kept; error: text chosen, `onError`, closed; `end`: `onEnd`, closed; a closed source fires nothing; every terminal callback leaves the source closed |
| `ChatStream.HandlersOnlyGateCalls` | ai-code-helper-frontend/src/api/chat.js:28-74 | a missing handler changes only whether its callback runs, never the state reached or any other callback |
| `ChatStream.ClosedIsSilent` | ai-code-helper-frontend/src/api/chat.js:59-78 | once closed, a source stays closed and fires no callback whatever arrives |
| `ChatStream.NoTimeoutOnceCleared` | ai-code-helper-frontend/src/api/chat.js:24-32 | once the timer is cleared, no event sequence fires `onTimeout` |
| `ChatStream.OpenRulesOutTimeout` | ai-code-helper-frontend/src/api/chat.js:35-41 | after the connection opened, `onTimeout` never fires for that source |
| `ChatStream.AtMostOneTerminal` | ai-code-helper-frontend/src/api/chat.js:52-78 | over any event sequence at most one of `onError`, `onEnd`, `onTimeout` fires, and none on a closed source |
| `ChatStream.MessagesPassThrough` | ai-code-helper-frontend/src/api/chat.js:44-49 | on an open or connecting source, message events reach `onMessage` one by one, in arrival order, with their data unchanged, and leave the state alone |
| `ChatTurn.FindMessage` | ai-code-helper-frontend/src/composables/useChat.js:53 | the first position holding the id, -1 exactly when no message has it |
| `ChatTurn.AddMessage` | ai-code-helper-frontend/src/composables/useChat.js:12-22 | the new message, with the given text, sender, typing flag and id, is appended at the end; nothing else changes |
| `ChatTurn.SendMessage` | ai-code-helper-frontend/src/composables/useChat.js:25-94 | blank input or a send in flight changes nothing; otherwise the user message and an empty typing assistant placeholder are appended in that order, each with its own timestamp, loading starts and the stream is created; if creating the stream throws, an error message follows and loading stops |
| `ChatTurn.OnMessage` | ai-code-helper-frontend/src/composables/useChat.js:52-58 | the delta is appended to the placeholder's text and typing stops; no other message, the flag or the stream changes; a missing placeholder leaves the messages alone |
| `ChatTurn.OnError` | ai-code-helper-frontend/src/composables/useChat.js:60-69 | the error text replaces the placeholder's text only when that text is blank, so partial output survives; typing stops; loading always stops |
| `ChatTurn.OnEnd` | ai-code-helper-frontend/src/composables/useChat.js:71-77 | the placeholder keeps its text and stops typing; loading stops |
| `ChatTurn.OnTimeout` | ai-code-helper-frontend/src/composables/useChat.js:79-86 | a blank placeholder gets the timeout text and stops typing; a placeholder with partial text is left exactly as it is, typing flag included; loading stops |
| `ChatTurn.Cleanup` | ai-code-helper-frontend/src/composables/useChat.js:137-142 | the stream is forgotten and, when there was one, its source is closed |
| `ChatTurn.StartNewChat` | ai-code-helper-frontend/src/composables/useChat.js:111-134 | exactly one welcome message from the assistant, no loading, the new chat id, no stream, and the old source closed |
| `ChatTurn.InitializeChat` | ai-code-helper-frontend/src/composables/useChat.js:97-108 | the welcome message is appended and the new chat id set |
| `ChatTurn.DeliverConsistent` | ai-code-helper-frontend/src/composables/useChat.js:60-86 | whatever event arrives, the loading flag stays true exactly while the current stream is live |
| `ChatTurn.ResetsConsistent` | ai-code-helper-frontend/src/composables/useChat.js:25-142 | sending, cleaning up and starting a new chat keep the loading flag consistent with the stream |
| `ChatTurn.SendNeverAbandonsLiveStream` | ai-code-helper-frontend/src/composables/useChat.js:26 | a send replaces the stream only when the old one is already closed: at most one stream is live |
| `ChatTurn.DeltaAppended` | ai-code-helper-frontend/src/composables/useChat.js:52-58 | one delta on an open stream is appended to the placeholder, which keeps its position |
| `ChatTurn.DeltasTouchOnlyPlaceholder` | ai-code-helper-frontend/src/composables/useChat.js:52-58 | a run of deltas changes no message but the placeholder, nor the flag or the stream |
| `ChatTurn.StreamedTextIsConcatenation` | ai-code-helper-frontend/src/composables/useChat.js:52-58 | after any run of deltas the placeholder's text is its earlier text followed by the deltas in arrival order, and it no longer types |
| `ChatTurn.QuietAfterTerminal` | ai-code-helper-frontend/src/composables/useChat.js:60-86 | after an error, `end` or timeout the stream is closed, loading is off, and nothing arriving later changes the messages or the flag |
| `ChatTurn.ClosedStreamIgnored` | ai-code-helper-frontend/src/composables/useChat.js:47-87 | events on a closed stream change neither the messages nor the loading flag |
| `Guardrail.WordEnd` | src/main/java/com/ithuang/aicodehelper/ai/guardrail/SafeInputGuardrail.java:24 | the end of the maximal run of word characters from a position |
| `Guardrail.SkipEnd` | src/main/java/com/ithuang/aicodehelper/ai/guardrail/SafeInputGuardrail.java:24 | the end of the maximal run of non-word characters from a position |
| `Guardrail.DropTrailingEmpty` | src/main/java/com/ithuang/aicodehelper/ai/guardrail/SafeInputGuardrail.java:24 | the result is a prefix of the pieces, everything dropped is empty, and the result is empty or ends in a non-empty piece |
| `Guardrail.Lower` | src/main/java/com/ithuang/aicodehelper/ai/guardrail/SafeInputGuardrail.java:22 | same length, each character lower-cased on its own (ASCII letters map to lower case, all else unchanged) |
| `Guardrail.JavaSplit` | src/main/java/com/ithuang/aicodehelper/ai/guardrail/SafeInputGuardrail.java:24 | an input with no non-word character is returned whole; otherwise no trailing empty token remains; every token consists of word characters only |
| `Guardrail.FirstSensitive` | src/main/java/com/ithuang/aicodehelper/ai/guardrail/SafeInputGuardrail.java:26-30 | none exactly when no word is sensitive; otherwise a sensitive word preceded only by non-sensitive ones |
| `Guardrail.Validate` | src/main/java/com/ithuang/aicodehelper/ai/guardrail/SafeInputGuardrail.java:20-32 | fatal exactly when a token is "kill" or "evil", with the message "Sensitive word detected: " plus the first such token in order |
| `Guardrail.PiecesAreWholeWords` | src/main/java/com/ithuang/aicodehelper/ai/guardrail/SafeInputGuardrail.java:24 | from a word boundary on, a non-empty word is a piece exactly when it occurs there as a whole word |
| `Guardrail.OnePiece` | src/main/java/com/ithuang/aicodehelper/ai/guardrail/SafeInputGuardrail.java:24 | input without a non-word character is a single piece, itself |
| `Guardrail.SplitTokensAreWholeWords` | src/main/java/com/ithuang/aicodehelper/ai/guardrail/SafeInputGuardrail.java:24 | a non-empty word is a token of `split("\\W+")` exactly when it occurs in the input as a whole word, bounded by non-word characters or the ends |
| `Guardrail.ValidateRejectsWholeWords` | src/main/java/com/ithuang/aicodehelper/ai/guardrail/SafeInputGuardrail.java:14-31 | rejected exactly when, after lower-casing, "kill" or "evil" stands somewhere as a whole word |
| `Guardrail.ValidateNamesLeftmost` | src/main/java/com/ithuang/aicodehelper/ai/guardrail/SafeInputGuardrail.java:24-28 | when the leftmost place where "kill" or "evil" stands as a whole word (after lower-casing) holds `w`, the message is "Sensitive word detected: " followed by `w`: the word named is the first in left-to-right order |
| `Guardrail.ValidateIgnoresCase` | src/main/java/com/ithuang/aicodehelper/ai/guardrail/SafeInputGuardrail.java:22 | an input and its lower-cased form get the same verdict |
| `Guardrail.CapitalsRejected` | src/main/java/com/ithuang/aicodehelper/ai/guardrail/SafeInputGuardrail.java:22-28 | "KILL" is rejected with "Sensitive word detected: kill" |
| `Guardrail.SkillPasses` | src/main/java/com/ithuang/aicodehelper/ai/guardrail/SafeInputGuardrail.java:24-27 | "skill" passes: a sensitive word inside a longer word does not count |
| `Guardrail.UnderscoreJoinsWords` | src/main/java/com/ithuang/aicodehelper/ai/guardrail/SafeInputGuardrail.java:24 | "kill_1" passes: `_` and digits are word characters |
| `Guardrail.HyphenSeparatesWords` | src/main/java/com/ithuang/aicodehelper/ai/guardrail/SafeInputGuardrail.java:24-28 | "kill-me" splits into "kill" and "me" and is rejected at "kill" |
| `Guardrail.NoWordsPass` | src/main/java/com/ithuang/aicodehelper/ai/guardrail/SafeInputGuardrail.java:24-31 | the empty input and punctuation-only input pass |

## Left out

- `fetchWithTimeout`, `log`, `checkServiceHealth`, `sendChatMessage`, `formatTime`: fetch, abort controllers, timers, console output and locale formatting are I/O. A remote call is only its `Ok`/`Err` outcome.
- Console logging in every operation, including the retry message in `retry`: output only.
- `generateId`, `generateChatId`, `Date.now()`, `Math.random()`, `new Date().toISOString()`: these are non-deterministic, so their values are parameters. Every call in the code gets its own parameter, and nothing relates two of them: no uniqueness, no ordering, no equality. The code ensures none of these.
- JSON and localStorage mechanics. A key is `Absent`, `Corrupt` or `Stored`. JSON that parses to a value of the wrong shape, and quota errors from `setItem`, are not modelled.
- The JSON or text decoding of an ok response body in `handleApiResponse`: the model returns the body text.
- Percent-encoding in `URLSearchParams` and `encodeURIComponent` is an opaque `encode` function. The query-string round trip assumes it never writes `&` or `=`, which form encoding guarantees.
- `ApiUtils.Retry`: requires at least `maxAttempts` outcomes, one for each call `fn` might get. The delay is an integer, and `Math.pow` on floating-point numbers is not modelled. A non-integer `maxAttempts` (such as 2.5) is not modelled either. With one, `attempt === maxAttempts` never holds, so the code also waits after the last failed call and then throws `lastError` from after the loop.
- `ApiUtils.HttpErrorClassification`: proved only for three-digit statuses and for bodies without the timeout or refused-connection markers. Other bodies are classified by the earlier rules of `ApiUtils.ErrorMessage`.
- `ApiUtils.KeptParams`: its own contract bounds only the length. Which entries are kept, and in what order, is stated by `ApiUtils.KeptParamsSingle` and `ApiUtils.KeptParamsAppend`. The sequence given is taken to be in `Object.entries` order, which puts integer-like keys first in ascending order. That reordering is not modelled.
- `ApiUtils.ErrorMessage`: the error always has a string `message`. In the code, an error without one (such as the `undefined` that `retry` rejects with when `maxAttempts <= 0`) makes `.includes` throw a `TypeError` inside `getErrorMessage`. That path is not modelled.
- `Guardrail.Lower`: lower-cases ASCII letters only. Java's `toLowerCase` also maps other characters (for example the Kelvin sign to `k`), and that mapping is not modelled.
- `Guardrail.Lower`: assumes a default locale in which `I` lower-cases to `i`. Under a Turkish or Azerbaijani locale, `toLowerCase()` turns "KILL" into "kıll", which passes. So `Guardrail.CapitalsRejected` and `Guardrail.ValidateIgnoresCase` hold only for the locale the model assumes.
- The Java `Set.of`, the `UserMessage` wrapper and the `InputGuardrailResult` factory methods are reduced to a predicate and the `Verdict` datatype.
- `useTheme.js`, `config.js` and `index.js` (beyond the inlined constants), the Spring and LangChain4j wiring, the controller, the tests and `InterviewQuestionTool`: framework, network and UI code outside this model.
- The `onOpen` callback of `useChat` only logs, so it changes no state.
- The connect timer's 15-second duration: time is not modelled. The timer firing is an event like any other.

=== FILE: api_utils.dfy ===
/**
 * The request utilities of the frontend's `api/utils.js`: the retry loop with
 * exponential backoff, the error-message classifier, the error shape of a
 * non-ok response, and query-string / URL construction.
 */
module ApiUtils {
  import opened Base
  import opened Strings

  // Constants of `api/config.js`.
  const BaseUrl: string := "http://localhost:8081"
  const DefaultMaxAttempts: int := 3
  const DefaultDelay: int := 1000
  const BackoffFactor: nat := 2

  const NetworkErrorText: string := "网络连接失败，请检查网络连接"
  const TimeoutErrorText: string := "请求超时，请稍后重试"
  const ServerErrorText: string := "服务器错误，请稍后重试"
  const ConnectionRefusedText: string := "无法连接到后端服务，请确保后端服务正在运行"
  const UnknownErrorText: string := "未知错误，请稍后重试"

  /** A thrown JavaScript `Error`: its `name` and its `message`. */
  datatype ErrorValue = ErrorValue(name: string, message: string)

  // ---------------------------------------------------------------------------
  // handleApiResponse

  /** A fetch response as far as the model needs it: the status and the body text. */
  datatype Response = Response(status: nat, body: string)

  /** `response.ok`: the status is in the 2xx range. */
  predicate IsOk(resp: Response) {
    200 <= resp.status <= 299
  }

  /** The message of the error thrown for a non-ok response. */
  function HttpErrorMessage(status: nat, body: string): string {
    "HTTP " + DecimalString(status) + ": " + body
  }

  /**
   * `handleApiResponse`: an ok response yields its body; any other throws an
   * `Error` whose message is `HTTP <status>: <body text>`.
   */
  function HandleApiResponse(resp: Response): (r: Result<string, ErrorValue>)
    ensures r.Success? <==> IsOk(resp)
    ensures r.Success? ==> r.value == resp.body
    ensures r.Failure? ==> r.error == ErrorValue("Error", HttpErrorMessage(resp.status, resp.body))
  {
    if IsOk(resp) then Success(resp.body)
    else Failure(ErrorValue("Error", HttpErrorMessage(resp.status, resp.body)))
  }

  // ---------------------------------------------------------------------------
  // getErrorMessage

  /** The user-facing texts `getErrorMessage` can return besides the raw message. */
  predicate IsCannedText(s: string) {
    s == NetworkErrorText || s == TimeoutErrorText || s == ConnectionRefusedText
    || s == ServerErrorText || s == UnknownErrorText
  }

  /** A `TypeError` raised by `fetch` itself. */
  predicate IsFetchTypeError(e: ErrorValue) {
    e.name == "TypeError" && Contains(e.message, "fetch")
  }

  /** The message mentions a timeout, in either spelling the code looks for. */
  predicate HasTimeoutMarker(msg: string) {
    Contains(msg, "timeout") || Contains(msg, "TIMEOUT")
  }

  /** The message mentions a refused connection, in either spelling the code looks for. */
  predicate HasRefusedMarker(msg: string) {
    Contains(msg, "ECONNREFUSED") || Contains(msg, "connection refused")
  }

  /**
   * `getErrorMessage`: a fixed-precedence classifier — a fetch `TypeError`,
   * then a timeout marker, then a refused connection, then an `HTTP 5`
   * marker, and otherwise the raw message (or the unknown-error text when
   * the message is empty).
   */
  function ErrorMessage(e: ErrorValue): (r: string)
    ensures r != ""
    ensures IsCannedText(r) || r == e.message
    ensures IsFetchTypeError(e) ==> r == NetworkErrorText
    ensures !IsFetchTypeError(e) && HasTimeoutMarker(e.message) ==> r == TimeoutErrorText
    ensures !IsFetchTypeError(e) && !HasTimeoutMarker(e.message) && HasRefusedMarker(e.message)
      ==> r == ConnectionRefusedText
    ensures (!IsFetchTypeError(e) && !HasTimeoutMarker(e.message) && !HasRefusedMarker(e.message)
      && Contains(e.message, "HTTP 5")) ==> r == ServerErrorText
    ensures (!IsFetchTypeError(e) && !HasTimeoutMarker(e.message) && !HasRefusedMarker(e.message)
      && !Contains(e.message, "HTTP 5")) ==> r == (if e.message != "" then e.message else UnknownErrorText)
  {
    if IsFetchTypeError(e) then NetworkErrorText
    else if HasTimeoutMarker(e.message) then TimeoutErrorText
    else if HasRefusedMarker(e.message) then ConnectionRefusedText
    else if Contains(e.message, "HTTP 5") then ServerErrorText
    else if e.message != "" then e.message
    else UnknownErrorText
  }

  /** The markers the classifier looks for before the `HTTP 5` one. */
  predicate FreeOfEarlierMarkers(s: string) {
    !HasTimeoutMarker(s) && !HasRefusedMarker(s)
  }

  /** The fixed part of the message of a non-ok response with a three-digit status. */
  lemma HttpPrefixShape(status: nat)
    requires 100 <= status < 1000
    ensures var p := "HTTP " + DecimalString(status) + ": ";
      && |p| == 10 && p[..5] == "HTTP " && p[5] == DigitChar(status / 100)
      && (forall i :: 5 <= i < 8 ==> '0' <= p[i] <= '9')
      && p[8] == ':' && p[9] == ' '
  {
    ThreeDigitDecimal(status);
  }

  /** No occurrence of a marker whose first letter never appears in the prefix can start there. */
  lemma MarkerDivergesFromHttpPrefix(status: nat, p: string, t: string)
    requires 100 <= status < 1000 && p == "HTTP " + DecimalString(status) + ": "
    requires t in {"timeout", "TIMEOUT", "ECONNREFUSED", "connection refused"}
    ensures forall i :: 0 <= i < |p| ==> Diverge(p[i..], t)
  {
    HttpPrefixShape(status);
    forall i | 0 <= i < |p|
      ensures Diverge(p[i..], t)
    {
      if t == "TIMEOUT" && (i == 1 || i == 2) {
        assert p[i + 1] != t[1];
        assert p[i..][1] != t[1];
      } else {
        assert p[i] != t[0];
        assert p[i..][0] != t[0];
      }
    }
  }

  /** The `HTTP 5` marker can start inside the prefix only at its head, and only for a 5xx status. */
  lemma ServerMarkerInHttpPrefix(status: nat, body: string)
    requires 100 <= status < 1000
    ensures Contains(HttpErrorMessage(status, body), "HTTP 5")
        <==> status / 100 == 5 || Contains(body, "HTTP 5")
  {
    var p := "HTTP " + DecimalString(status) + ": ";
    var t := "HTTP 5";
    HttpPrefixShape(status);
    assert HttpErrorMessage(status, body) == p + body;
    if status / 100 == 5 {
      assert (p + body)[..6] == t;
      PrefixContained(t, p + body);
    } else {
      forall i | 0 <= i < |p|
        ensures Diverge(p[i..], t)
      {
        if i == 0 {
          assert p[5] != t[5];
          assert p[i..][5] != t[5];
        } else {
          assert p[i] != t[0];
          assert p[i..][0] != t[0];
        }
      }
      ContainsAfterPrefix(p, body, t);
    }
  }

  /**
   * A non-ok response with a three-digit status, whose body carries none of
   * the earlier markers, is reported as a server error exactly when the
   * status is 5xx or the body itself mentions `HTTP 5`; otherwise the
   * `HTTP <status>: <body>` message is shown as it is.
   */
  lemma {:induction false} HttpErrorClassification(resp: Response)
    requires !IsOk(resp) && 100 <= resp.status < 1000
    requires FreeOfEarlierMarkers(resp.body)
    ensures var r := HandleApiResponse(resp);
      r.Failure?
      && (ErrorMessage(r.error) == ServerErrorText <==> resp.status / 100 == 5 || Contains(resp.body, "HTTP 5"))
      && (!(resp.status / 100 == 5 || Contains(resp.body, "HTTP 5")) ==> ErrorMessage(r.error) == r.error.message)
  {
    var p := "HTTP " + DecimalString(resp.status) + ": ";
    var msg := HttpErrorMessage(resp.status, resp.body);
    assert msg == p + resp.body;
    MarkerDivergesFromHttpPrefix(resp.status, p, "timeout");
    ContainsAfterPrefix(p, resp.body, "timeout");
    MarkerDivergesFromHttpPrefix(resp.status, p, "TIMEOUT");
    ContainsAfterPrefix(p, resp.body, "TIMEOUT");
    MarkerDivergesFromHttpPrefix(resp.status, p, "ECONNREFUSED");
    ContainsAfterPrefix(p, resp.body, "ECONNREFUSED");
    MarkerDivergesFromHttpPrefix(resp.status, p, "connection refused");
    ContainsAfterPrefix(p, resp.body, "connection refused");
    ServerMarkerInHttpPrefix(resp.status, resp.body);
    assert msg != "" && msg != ServerErrorText by {
      assert msg[0] == 'H' != ServerErrorText[0];
    }
  }

  // ---------------------------------------------------------------------------
  // retry

  /** What one call of the retried function did: returned a value or threw. */
  datatype Attempt<+T, +E> = Succeeded(value: T) | Threw(error: E)

  /** How `retry` settles: resolved with a value, or rejected with the last error (absent: `undefined`). */
  datatype RetryOutcome<+T, +E> = Resolved(value: T) | Rejected(reason: Option<E>)

  /** One run of `retry`: how many calls were made, the waits between them, and the outcome. */
  datatype RetryRun<+T, +E> = RetryRun(calls: nat, waits: seq<int>, outcome: RetryOutcome<T, E>)

  /** `Math.pow` on naturals. */
  function Pow(base: nat, exp: nat): nat
    decreases exp
  {
    if exp == 0 then 1 else base * Pow(base, exp - 1)
  }

  /** The first `n` calls all threw. */
  predicate AllThrew<T, E>(outcomes: seq<Attempt<T, E>>, n: nat)
    requires n <= |outcomes|
  {
    forall k :: 0 <= k < n ==> outcomes[k].Threw?
  }

  /** The waits follow the backoff schedule `delay * factor^k`, starting from exponent `first`. */
  predicate BackoffFrom(waits: seq<int>, delay: int, first: nat) {
    forall k :: 0 <= k < |waits| ==> waits[k] == delay * Pow(BackoffFactor, first + k)
  }

  /**
   * The loop of `retry` from attempt number `attempt` on (numbered from 1):
   * call the function; a value ends the run; an error on the last allowed
   * attempt is rethrown; any other error waits `delay * factor^(attempt-1)`
   * and tries again.
   */
  function RetryFrom<T, E>(outcomes: seq<Attempt<T, E>>, attempt: nat, maxAttempts: nat, delay: int)
    : (run: RetryRun<T, E>)
    requires 1 <= attempt <= maxAttempts <= |outcomes|
    ensures attempt <= run.calls <= maxAttempts
    ensures |run.waits| == run.calls - attempt
    ensures BackoffFrom(run.waits, delay, attempt - 1)
    ensures forall k :: attempt - 1 <= k < run.calls - 1 ==> outcomes[k].Threw?
    ensures run.outcome.Resolved? ==> outcomes[run.calls - 1] == Succeeded(run.outcome.value)
    ensures run.outcome.Rejected? ==>
      && run.calls == maxAttempts
      && outcomes[maxAttempts - 1].Threw?
      && run.outcome.reason == Some(outcomes[maxAttempts - 1].error)
    decreases maxAttempts - attempt
  {
    match outcomes[attempt - 1]
    case Succeeded(v) => RetryRun(attempt, [], Resolved(v))
    case Threw(e) =>
      if attempt == maxAttempts then RetryRun(attempt, [], Rejected(Some(e)))
      else
        var rest := RetryFrom(outcomes, attempt + 1, maxAttempts, delay);
        RetryRun(rest.calls, [delay * Pow(BackoffFactor, attempt - 1)] + rest.waits, rest.outcome)
  }

  /**
   * `retry(fn, maxAttempts, delay)` over the outcomes the successive calls of
   * `fn` would have. It makes at most `maxAttempts` calls, stops at the first
   * success, rethrows the error of the last attempt when all fail, waits only
   * between attempts, and with `maxAttempts <= 0` never calls `fn` and rejects
   * with the still-undefined last error.
   */
  function Retry<T, E>(outcomes: seq<Attempt<T, E>>, maxAttempts: int, delay: int): (run: RetryRun<T, E>)
    requires maxAttempts <= |outcomes|
    ensures maxAttempts <= 0 ==> run == RetryRun(0, [], Rejected(None))
    ensures maxAttempts >= 1 ==> 1 <= run.calls <= maxAttempts && |run.waits| == run.calls - 1
    ensures BackoffFrom(run.waits, delay, 0)
    ensures run.calls >= 1 ==> AllThrew(outcomes, run.calls - 1)
    ensures run.outcome.Resolved? <==> exists k :: 0 <= k < maxAttempts && outcomes[k].Succeeded?
    ensures run.outcome.Resolved? ==> outcomes[run.calls - 1] == Succeeded(run.outcome.value)
    ensures maxAttempts >= 1 && run.outcome.Rejected? ==>
      run.calls == maxAttempts && run.outcome.reason == Some(outcomes[maxAttempts - 1].error)
  {
    if maxAttempts <= 0 then RetryRun(0, [], Rejected(None))
    else
      var run := RetryFrom(outcomes, 1, maxAttempts, delay);
      assert run.outcome.Rejected? ==> AllThrew(outcomes, maxAttempts);
      run
  }

  /** The sum of a sequence of waits. */
  function Sum(s: seq<int>): int
    decreases |s|
  {
    if s == [] then 0 else Sum(s[..|s| - 1]) + s[|s| - 1]
  }

  /** The waits of a backoff schedule add up to `delay * (factor^n - 1)` for a factor of 2. */
  lemma {:induction false} BackoffTotal(waits: seq<int>, delay: int)
    requires BackoffFrom(waits, delay, 0)
    ensures Sum(waits) == delay * (Pow(BackoffFactor, |waits|) - 1)
    decreases |waits|
  {
    if waits != [] {
      var n := |waits| - 1;
      var front := waits[..n];
      assert BackoffFrom(front, delay, 0) by {
        forall k | 0 <= k < |front| ensures front[k] == delay * Pow(BackoffFactor, k) {
          assert front[k] == waits[k];
        }
      }
      BackoffTotal(front, delay);
      assert waits[n] == delay * Pow(BackoffFactor, n);
      assert Pow(BackoffFactor, n + 1) == 2 * Pow(BackoffFactor, n);
      calc {
        Sum(waits);
        Sum(front) + waits[n];
        delay * (Pow(BackoffFactor, n) - 1) + delay * Pow(BackoffFactor, n);
        { assert delay * (Pow(BackoffFactor, n) - 1) == delay * Pow(BackoffFactor, n) - delay; }
        delay * (2 * Pow(BackoffFactor, n)) - delay;
        delay * (Pow(BackoffFactor, n + 1) - 1);
      }
    }
  }

  /** With the configured 3 attempts, 1000 ms and factor 2, three failures wait 1000 then 2000 ms. */
  lemma ConfiguredRetryAllFail<T, E>(outcomes: seq<Attempt<T, E>>)
    requires |outcomes| == DefaultMaxAttempts && AllThrew(outcomes, |outcomes|)
    ensures var run := Retry(outcomes, DefaultMaxAttempts, DefaultDelay);
      run == RetryRun(3, [1000, 2000], Rejected(Some(outcomes[2].error)))
  {
    var run := Retry(outcomes, DefaultMaxAttempts, DefaultDelay);
    assert !outcomes[0].Succeeded? && !outcomes[1].Succeeded? && !outcomes[2].Succeeded?;
    assert run.waits[0] == 1000 * Pow(2, 0);
    assert run.waits[1] == 1000 * Pow(2, 1);
  }

  /**
   * Failing twice then succeeding with the configured parameters waits
   * 1000 then 2000 ms, 3000 ms in all, before the successful third call.
   */
  lemma ConfiguredRetryThirdSucceeds<T, E>(outcomes: seq<Attempt<T, E>>)
    requires |outcomes| == 3 && outcomes[0].Threw? && outcomes[1].Threw? && outcomes[2].Succeeded?
    ensures var run := Retry(outcomes, DefaultMaxAttempts, DefaultDelay);
      && run == RetryRun(3, [1000, 2000], Resolved(outcomes[2].value))
      && Sum(run.waits) == 3000
  {
    var run := Retry(outcomes, DefaultMaxAttempts, DefaultDelay);
    assert run.outcome.Resolved?;
    assert run.waits[0] == 1000 * Pow(2, 0);
    assert run.waits[1] == 1000 * Pow(2, 1);
    BackoffTotal(run.waits, DefaultDelay);
    assert Pow(2, 2) == 4;
  }

  // ---------------------------------------------------------------------------
  // buildQueryString / buildApiUrl

  /** A parameter value after `String(value)`, or one of the two skipped values. */
  datatype ParamValue = Null | Undefined | Value(text: string)

  /**
   * The entries `buildQueryString` keeps, in the order `Object.entries`
   * lists them (the sequence given here is taken to be that order).
   */
  function KeptParams(params: seq<(string, ParamValue)>): (kept: seq<(string, string)>)
    ensures |kept| <= |params|
    decreases |params|
  {
    if params == [] then []
    else
      var rest := KeptParams(params[1..]);
      match params[0].1
      case Value(v) => [(params[0].0, v)] + rest
      case _ => rest
  }

  /** Filtering distributes over concatenation: the kept entries keep their relative order. */
  lemma {:induction false} KeptParamsAppend(a: seq<(string, ParamValue)>, b: seq<(string, ParamValue)>)
    ensures KeptParams(a + b) == KeptParams(a) + KeptParams(b)
    decreases |a|
  {
    if a == [] {
      assert a + b == b;
    } else {
      assert (a + b)[0] == a[0];
      assert (a + b)[1..] == a[1..] + b;
      KeptParamsAppend(a[1..], b);
    }
  }

  /** A single entry is kept, as `(name, String(value))`, exactly when its value is neither `null` nor `undefined`. */
  lemma KeptParamsSingle(name: string, v: ParamValue)
    ensures v.Value? ==> KeptParams([(name, v)]) == [(name, v.text)]
    ensures !v.Value? ==> KeptParams([(name, v)]) == []
  {
  }

  /** Every value is `null` or `undefined`. */
  predicate NoValues(params: seq<(string, ParamValue)>) {
    forall k :: 0 <= k < |params| ==> !params[k].1.Value?
  }

  /** The `name=value` pairs the serialiser writes, each part passed through the form encoder. */
  function EncodedPairs(kept: seq<(string, string)>, encode: string -> string): (pairs: seq<string>)
    ensures |pairs| == |kept|
    ensures forall k :: 0 <= k < |kept| ==> pairs[k] == encode(kept[k].0) + "=" + encode(kept[k].1)
    decreases |kept|
  {
    if kept == [] then [] else [encode(kept[0].0) + "=" + encode(kept[0].1)] + EncodedPairs(kept[1..], encode)
  }

  /** The kept entries are empty exactly when every value is `null` or `undefined`. */
  lemma {:induction false} KeptParamsEmpty(params: seq<(string, ParamValue)>)
    ensures KeptParams(params) == [] <==> NoValues(params)
    decreases |params|
  {
    if params != [] {
      KeptParamsEmpty(params[1..]);
      if params[0].1.Value? {
        assert KeptParams(params) != [];
      } else {
        assert NoValues(params) <==> NoValues(params[1..]) by {
          if NoValues(params[1..]) {
            forall k | 0 <= k < |params| ensures !params[k].1.Value? {
              if k > 0 { assert params[k] == params[1..][k - 1]; }
            }
          }
        }
      }
    }
  }

  /** Joining at least one `name=value` pair gives a non-empty string. */
  lemma JoinedPairsNonEmpty(kept: seq<(string, string)>, encode: string -> string)
    requires kept != []
    ensures Join(EncodedPairs(kept, encode), '&') != ""
  {
    var pairs := EncodedPairs(kept, encode);
    assert '=' in pairs[0] by {
      var k := |encode(kept[0].0)|;
      assert pairs[0][k] == '=';
    }
    if |pairs| == 1 {
      assert Join(pairs, '&') == pairs[0];
    } else {
      assert Join(pairs, '&')[|pairs[0]|] == '&';
    }
  }

  /**
   * `buildQueryString`: appends every entry whose value is neither `null`
   * nor `undefined` to a `URLSearchParams` and serialises it. The
   * percent-encoding of names and values is the opaque `encode`. The
   * string is empty exactly when every value is `null` or `undefined`.
   */
  function BuildQueryString(params: seq<(string, ParamValue)>, encode: string -> string): (q: string)
    ensures q == "" <==> NoValues(params)
  {
    KeptParamsEmpty(params);
    if KeptParams(params) != [] then JoinedPairsNonEmpty(KeptParams(params), encode); Join(EncodedPairs(KeptParams(params), encode), '&')
    else Join(EncodedPairs(KeptParams(params), encode), '&')
  }

  /** The form encoder never writes the two characters that delimit a query string. */
  ghost predicate FormSafe(encode: string -> string) {
    forall s :: '&' !in encode(s) && '=' !in encode(s)
  }

  /** Reads one `name=value` pair: split at the first `=` (a pair without one has an empty value). */
  function ParsePair(s: string): (string, string)
    decreases |s|
  {
    if s == [] then ("", "")
    else if s[0] == '=' then ("", s[1..])
    else var r := ParsePair(s[1..]); ([s[0]] + r.0, r.1)
  }

  /** Reads a query string back into its encoded pairs. */
  function ParseQuery(q: string): seq<(string, string)> {
    if q == "" then [] else ParsePairs(SplitOn(q, '&'))
  }

  /** Reads every piece as a pair. */
  function ParsePairs(pieces: seq<string>): (pairs: seq<(string, string)>)
    ensures |pairs| == |pieces|
    ensures forall k :: 0 <= k < |pieces| ==> pairs[k] == ParsePair(pieces[k])
    decreases |pieces|
  {
    if pieces == [] then [] else [ParsePair(pieces[0])] + ParsePairs(pieces[1..])
  }

  /** A pair whose name holds no `=` parses back into its name and value. */
  lemma {:induction false} ParsePairWritten(name: string, value: string)
    requires '=' !in name
    ensures ParsePair(name + "=" + value) == (name, value)
    decreases |name|
  {
    if name == [] {
      assert name + "=" + value == "=" + value;
    } else {
      assert (name + "=" + value)[1..] == name[1..] + "=" + value;
      ParsePairWritten(name[1..], value);
      assert [name[0]] + name[1..] == name;
    }
  }

  /**
   * Round trip: with an encoder that never writes `&` or `=`, reading the
   * query string back yields exactly the encoded name/value pairs of the
   * kept entries, in the order the entries are given (`Object.entries` order).
   */
  lemma QueryStringRoundTrip(params: seq<(string, ParamValue)>, encode: string -> string)
    requires FormSafe(encode)
    ensures var kept := KeptParams(params);
      ParseQuery(BuildQueryString(params, encode))
        == seq(|kept|, k requires 0 <= k < |kept| => (encode(kept[k].0), encode(kept[k].1)))
  {
    var kept := KeptParams(params);
    var pairs := EncodedPairs(kept, encode);
    var q := BuildQueryString(params, encode);
    var expected := seq(|kept|, k requires 0 <= k < |kept| => (encode(kept[k].0), encode(kept[k].1)));
    if kept == [] {
      assert q == "";
    } else {
      assert forall k :: 0 <= k < |pairs| ==> '&' !in pairs[k] by {
        forall k | 0 <= k < |pairs| ensures '&' !in pairs[k] {
          assert '&' !in encode(kept[k].0) && '&' !in encode(kept[k].1);
        }
      }
      SplitJoin(pairs, '&');
      assert q != "" by {
        assert |q| >= |pairs[0]| > 0 by {
          if |pairs| > 1 { assert q == pairs[0] + ['&'] + Join(pairs[1..], '&'); }
        }
      }
      forall k | 0 <= k < |kept| ensures ParsePair(pairs[k]) == expected[k] {
        assert '=' !in encode(kept[k].0);
        ParsePairWritten(encode(kept[k].0), encode(kept[k].1));
      }
    }
  }

  /**
   * `buildApiUrl`: the base URL and the endpoint, followed by `?` and the
   * query string only when that string is not empty.
   */
  function BuildApiUrl(endpoint: string, params: seq<(string, ParamValue)>, encode: string -> string)
    : (url: string)
    ensures IsPrefix(BaseUrl + endpoint, url)
    ensures url == BaseUrl + endpoint <==> NoValues(params)
    ensures !NoValues(params) ==>
      && url[|BaseUrl + endpoint|] == '?'
      && url[|BaseUrl + endpoint| + 1..] == BuildQueryString(params, encode)
  {
    var query := BuildQueryString(params, encode);
    if query != "" then BaseUrl + endpoint + "?" + query else BaseUrl + endpoint
  }
}

=== FILE: base.dfy ===
/** Small value wrappers shared by the rest of the model. */
module Base {

  /** An optional value: JavaScript's `undefined`/absent field, or a present one. */
  datatype Option<+T> = None | Some(value: T) {

    /** The wrapped value, or `default` when absent (the `??`-style fallback). */
    function GetOr(default: T): T {
      match this
      case Some(v) => v
      case None => default
    }
  }

  /** The outcome of an operation that either returns a value or throws. */
  datatype Result<+T, +E> = Success(value: T) | Failure(error: E)
}

=== FILE: chat_stream.dfy ===
/**
 * The event dispatch of `createChatSSE` in the frontend's `api/chat.js`.
 *
 * An `EventSource` is reduced to its `readyState` plus whether the connect
 * timer is still armed. The model receives the events the browser and the
 * timer would deliver and says which callback, if any, the code invokes and
 * what state it leaves. Following the HTML Standard's server-sent events
 * section, a source in the CLOSED state delivers no further events; only the
 * JavaScript timer can still fire, and its handler checks the state first.
 * The code does not reconnect: every error closes the source.
 */
module ChatStream {
  import opened Base
  import opened Strings

  const BaseUrl: string := "http://localhost:8081"

  const GenericErrorText: string := "抱歉，处理您的请求时发生错误，请稍后重试。"
  const UnreachableText: string := "抱歉，无法连接到后端服务。请确保后端服务在 http://localhost:8081 运行，并检查网络连接。"

  datatype ReadyState = Connecting | Open | Closed

  /** One `EventSource` as the code sees it, with the connect timer of `createChatSSE`. */
  datatype Source = Source(readyState: ReadyState, timerArmed: bool)

  /** Which of the optional callbacks the caller supplied. */
  datatype Handlers = Handlers(onOpen: bool, onMessage: bool, onError: bool, onEnd: bool, onTimeout: bool)

  /** The caller of `useChat` supplies all five callbacks. */
  const AllHandlers: Handlers := Handlers(true, true, true, true, true)

  /**
   * What can happen to a source: the connect timer fires; the connection
   * opens; an unnamed message arrives; an error event of some `type` arrives
   * after the browser has set `readyState` to `stateAfter`; the named `end`
   * event arrives.
   */
  datatype Event =
    | TimerFired
    | Opened
    | Message(data: string)
    | Failure(eventType: string, stateAfter: ReadyState)
    | End

  /** A callback invocation. `OnError` carries the error event's type and the chosen text. */
  datatype Callback =
    | OnOpen
    | OnMessage(data: string)
    | OnError(eventType: string, text: string)
    | OnEnd
    | OnTimeout

  /** The state after an event and the callback invoked, if any. */
  datatype Step = Step(source: Source, fired: Option<Callback>)

  /** The callbacks after which the turn is over. */
  predicate IsTerminal(cb: Callback) {
    cb.OnError? || cb.OnEnd? || cb.OnTimeout?
  }

  /** `new EventSource(url)` with the connect timer just set. */
  function Create(): (s: Source)
    ensures s.readyState == Connecting && s.timerArmed
  {
    Source(Connecting, true)
  }

  /** The URL `createChatSSE` connects to; the message is encoded, the memory id is not. */
  function StreamUrl(memoryId: string, message: string, encode: string -> string): (url: string)
    ensures IsPrefix(BaseUrl + "/api/ai/chat?memoryId=" + memoryId + "&message=", url)
    ensures |url| == |BaseUrl + "/api/ai/chat?memoryId=" + memoryId + "&message="| + |encode(message)|
    ensures url[|url| - |encode(message)|..] == encode(message)
  {
    BaseUrl + "/api/ai/chat?memoryId=" + memoryId + "&message=" + encode(message)
  }

  /** The text shown for an error event: "cannot reach the backend" only for a plain error on a closed source. */
  function ErrorText(eventType: string, stateAfter: ReadyState): (text: string)
    ensures text == UnreachableText <==> eventType == "error" && stateAfter == Closed
    ensures text == GenericErrorText <==> !(eventType == "error" && stateAfter == Closed)
  {
    if eventType == "error" && stateAfter == Closed then UnreachableText else GenericErrorText
  }

  /** Invoke `cb` only when the handler for it was supplied. */
  function Call(present: bool, cb: Callback): Option<Callback> {
    if present then Some(cb) else None
  }

  /** `eventSource.close()`. It does not cancel the connect timer. */
  function Close(s: Source): (s': Source)
    ensures s'.readyState == Closed && s'.timerArmed == s.timerArmed
  {
    s.(readyState := Closed)
  }

  /**
   * One event through the handlers `createChatSSE` installs:
   * - timer: if still CONNECTING, close and call `onTimeout`; else nothing;
   * - open: clear the timer, call `onOpen`;
   * - message: pass `data` unchanged to `onMessage`;
   * - error: clear the timer, choose the text, call `onError`, close;
   * - `end`: clear the timer, call `onEnd`, close.
   * Every callback is optional: a missing one changes only what is called.
   */
  function Dispatch(s: Source, h: Handlers, e: Event): (step: Step)
    ensures s.readyState == Closed ==> step.fired == None && step.source.readyState == Closed
    ensures e.TimerFired? ==>
      && (step.fired.Some? <==> s.timerArmed && s.readyState == Connecting && h.onTimeout)
      && (s.timerArmed && s.readyState == Connecting ==> step.source.readyState == Closed)
      && (!(s.timerArmed && s.readyState == Connecting) ==> step.source.readyState == s.readyState)
    ensures e.TimerFired? ==>
      step.fired == (if s.timerArmed && s.readyState == Connecting then Call(h.onTimeout, OnTimeout) else None)
    ensures step.fired.Some? && step.fired.value.OnTimeout? ==> s.timerArmed && e.TimerFired?
    ensures s.readyState != Closed && e.Opened? ==>
      step.source == Source(Open, false) && step.fired == Call(h.onOpen, OnOpen)
    ensures s.readyState != Closed && e.Message? ==>
      step.source == s && step.fired == Call(h.onMessage, OnMessage(e.data))
    ensures s.readyState != Closed && (e.Failure? || e.End?) ==>
      step.source == Source(Closed, false)
    ensures s.readyState != Closed && e.Failure? ==>
      step.fired == Call(h.onError, OnError(e.eventType, ErrorText(e.eventType, e.stateAfter)))
    ensures s.readyState != Closed && e.End? ==> step.fired == Call(h.onEnd, OnEnd)
    ensures !s.timerArmed ==> !step.source.timerArmed
    ensures step.fired.Some? && IsTerminal(step.fired.value) ==> step.source.readyState == Closed
  {
    match e
    case TimerFired =>
      if s.timerArmed && s.readyState == Connecting then
        Step(Close(s).(timerArmed := false), Call(h.onTimeout, OnTimeout))
      else Step(s.(timerArmed := false), None)
    case _ =>
      if s.readyState == Closed then Step(s, None)
      else match e
        case Opened => Step(Source(Open, false), Call(h.onOpen, OnOpen))
        case Message(data) => Step(s, Call(h.onMessage, OnMessage(data)))
        case Failure(eventType, stateAfter) =>
          Step(Source(Closed, false), Call(h.onError, OnError(eventType, ErrorText(eventType, stateAfter))))
        case End => Step(Source(Closed, false), Call(h.onEnd, OnEnd))
  }

  /** Missing handlers never change the state a source moves to, only which callback runs. */
  lemma HandlersOnlyGateCalls(s: Source, h: Handlers, e: Event)
    ensures Dispatch(s, h, e).source == Dispatch(s, AllHandlers, e).source
    ensures Dispatch(s, h, e).fired.Some? ==> Dispatch(s, h, e).fired == Dispatch(s, AllHandlers, e).fired
  {
  }

  /** A sequence of events; the final source and the callbacks invoked, in order. */
  datatype Trace = Trace(source: Source, fired: seq<Callback>)

  function Run(s: Source, h: Handlers, events: seq<Event>): Trace
    decreases |events|
  {
    if events == [] then Trace(s, [])
    else
      var step := Dispatch(s, h, events[0]);
      var rest := Run(step.source, h, events[1..]);
      Trace(rest.source, (if step.fired.Some? then [step.fired.value] else []) + rest.fired)
  }

  /** A closed source stays closed and silent whatever arrives. */
  lemma {:induction false} ClosedIsSilent(s: Source, h: Handlers, events: seq<Event>)
    requires s.readyState == Closed
    ensures Run(s, h, events) == Trace(Run(s, h, events).source, [])
    ensures Run(s, h, events).source.readyState == Closed
    decreases |events|
  {
    if events != [] {
      ClosedIsSilent(Dispatch(s, h, events[0]).source, h, events[1..]);
    }
  }

  /** Once the timer is cleared (on open, error or `end`), `onTimeout` never fires for that source. */
  lemma {:induction false} NoTimeoutOnceCleared(s: Source, h: Handlers, events: seq<Event>)
    requires !s.timerArmed
    ensures forall k :: 0 <= k < |Run(s, h, events).fired| ==> !Run(s, h, events).fired[k].OnTimeout?
    decreases |events|
  {
    if events != [] {
      NoTimeoutOnceCleared(Dispatch(s, h, events[0]).source, h, events[1..]);
    }
  }

  /** After the connection opened, no later event leads to `onTimeout`. */
  lemma OpenRulesOutTimeout(s: Source, h: Handlers, later: seq<Event>)
    requires s.readyState != Closed
    ensures var afterOpen := Dispatch(s, h, Opened).source;
      forall k :: 0 <= k < |Run(afterOpen, h, later).fired| ==> !Run(afterOpen, h, later).fired[k].OnTimeout?
  {
    NoTimeoutOnceCleared(Dispatch(s, h, Opened).source, h, later);
  }

  /** How many terminal callbacks a trace holds. */
  function TerminalCount(fired: seq<Callback>): nat
    decreases |fired|
  {
    if fired == [] then 0 else (if IsTerminal(fired[0]) then 1 else 0) + TerminalCount(fired[1..])
  }

  /** However the events go, at most one of `onError`, `onEnd`, `onTimeout` fires for one source. */
  lemma {:induction false} AtMostOneTerminal(s: Source, h: Handlers, events: seq<Event>)
    ensures TerminalCount(Run(s, h, events).fired) <= 1
    ensures s.readyState == Closed ==> TerminalCount(Run(s, h, events).fired) == 0
    decreases |events|
  {
    if events != [] {
      var step := Dispatch(s, h, events[0]);
      AtMostOneTerminal(step.source, h, events[1..]);
      var head := if step.fired.Some? then [step.fired.value] else [];
      var rest := Run(step.source, h, events[1..]).fired;
      TerminalCountAppend(head, rest);
      if step.fired.Some? && IsTerminal(step.fired.value) {
        ClosedIsSilent(step.source, h, events[1..]);
      }
    }
  }

  lemma {:induction false} TerminalCountAppend(a: seq<Callback>, b: seq<Callback>)
    ensures TerminalCount(a + b) == TerminalCount(a) + TerminalCount(b)
    decreases |a|
  {
    if a != [] {
      assert (a + b)[0] == a[0];
      assert (a + b)[1..] == a[1..] + b;
      TerminalCountAppend(a[1..], b);
    } else {
      assert a + b == b;
    }
  }

  /** The data of a sequence of message events. */
  function Payloads(events: seq<Event>): (data: seq<string>)
    requires forall k :: 0 <= k < |events| ==> events[k].Message?
    ensures |data| == |events|
    decreases |events|
  {
    if events == [] then [] else [events[0].data] + Payloads(events[1..])
  }

  /**
   * On a source that is not closed, message events reach `onMessage` one by
   * one, in arrival order, with their data unchanged, and leave the state alone.
   */
  lemma {:induction false} MessagesPassThrough(s: Source, events: seq<Event>)
    requires s.readyState != Closed
    requires forall k :: 0 <= k < |events| ==> events[k].Message?
    ensures Run(s, AllHandlers, events).source == s
    ensures var fired := Run(s, AllHandlers, events).fired;
      |fired| == |events| && forall k :: 0 <= k < |events| ==> fired[k] == OnMessage(Payloads(events)[k])
    decreases |events|
  {
    if events != [] {
      MessagesPassThrough(s, events[1..]);
    }
  }
}

=== FILE: chat_turn.dfy ===
/**
 * The chat-turn state of the frontend's `composables/useChat.js`: the
 * in-memory message list, the loading flag, the chat id and the current
 * stream (the `EventSource` with the placeholder id its callbacks captured).
 * Message ids and timestamps (`Date.now() + Math.random()`, `Date.now()`)
 * and the new chat id are parameters.
 */
module ChatTurn {
  import opened Base
  import ChatStream

  const WelcomeText: string := "欢迎使用AI编程小助手\n\n我可以帮你解答技术问题、制定学习计划、优化简历等。\n\n有什么可以帮您？"
  const TimeoutText: string := "抱歉，连接超时，请检查网络连接或稍后重试。"
  const SendFailedText: string := "抱歉，发送消息时出现错误，请稍后重试。"

  datatype Sender = User | Ai

  /** A message shown in the chat. */
  datatype Message = Message(id: int, text: string, sender: Sender, timestamp: int, isTyping: bool)

  /** The live `EventSource` and the id of the placeholder its callbacks write to. */
  datatype Stream = Stream(source: ChatStream.Source, placeholder: int)

  /** The state `useChat` holds. */
  datatype State = State(messages: seq<Message>, isLoading: bool, chatId: string, stream: Option<Stream>)

  /** Whether constructing the `EventSource` returned or threw (for example, on a URL that cannot be built). */
  datatype Construction = Constructed | ConstructorThrew

  /** The characters `String.prototype.trim` removes: white space and line terminators. */
  predicate IsJsWhitespace(c: char) {
    c in {'\t', '\n', '\U{000B}', '\U{000C}', '\r', ' ', '\U{00A0}', '\U{1680}',
          '\U{2000}', '\U{2001}', '\U{2002}', '\U{2003}', '\U{2004}', '\U{2005}', '\U{2006}',
          '\U{2007}', '\U{2008}', '\U{2009}', '\U{200A}', '\U{2028}', '\U{2029}', '\U{202F}',
          '\U{205F}', '\U{3000}', '\U{FEFF}'}
  }

  /** `!s.trim()`: trimming leaves nothing. */
  predicate IsBlank(s: string) {
    forall k :: 0 <= k < |s| ==> IsJsWhitespace(s[k])
  }

  /** Some message has this id. */
  predicate HasMessage(msgs: seq<Message>, id: int) {
    exists k :: 0 <= k < |msgs| && msgs[k].id == id
  }

  /** `findIndex(msg => msg.id === id)`: the first position with this id, or -1. */
  function FindMessage(msgs: seq<Message>, id: int): (i: int)
    ensures -1 <= i < |msgs|
    ensures i == -1 <==> !HasMessage(msgs, id)
    ensures i >= 0 ==> msgs[i].id == id && forall k :: 0 <= k < i ==> msgs[k].id != id
    decreases |msgs|
  {
    if msgs == [] then -1
    else if msgs[0].id == id then 0
    else
      var j := FindMessage(msgs[1..], id);
      if j == -1 then -1 else j + 1
  }

  /** `msgs` and `msgs'` agree everywhere except possibly at position `i`. */
  predicate OthersUnchanged(msgs: seq<Message>, msgs': seq<Message>, i: int) {
    |msgs'| == |msgs| && forall k :: 0 <= k < |msgs| && k != i ==> msgs'[k] == msgs[k]
  }

  /** `addMessage(text, type, isTyping)`: appends a new message and returns it. */
  function AddMessage(st: State, text: string, sender: Sender, isTyping: bool, id: int, now: int)
    : (r: (State, Message))
    ensures r.0.messages == st.messages + [r.1]
    ensures r.1.text == text && r.1.sender == sender && r.1.isTyping == isTyping && r.1.id == id
    ensures r.0.isLoading == st.isLoading && r.0.chatId == st.chatId && r.0.stream == st.stream
  {
    var m := Message(id, text, sender, now, isTyping);
    (st.(messages := st.messages + [m]), m)
  }

  /**
   * `sendMessage(userMessage)`: ignored when the input is blank or a reply
   * is still loading; otherwise appends the user message and an empty typing
   * placeholder, sets the loading flag and opens a stream whose callbacks
   * write to the placeholder. If constructing the stream throws, an error
   * message is appended instead and loading stops. Each message is stamped
   * by its own clock read: `sentAt` for the user message, `placeholderAt`
   * for the placeholder and `failedAt` for the error message.
   */
  function SendMessage(st: State, input: string, userId: int, placeholderId: int, fallbackId: int,
                       sentAt: int, placeholderAt: int, failedAt: int, construction: Construction)
    : (st': State)
    ensures IsBlank(input) || st.isLoading ==> st' == st
    ensures !IsBlank(input) && !st.isLoading ==>
      && |st'.messages| >= |st.messages| + 2
      && st'.messages[..|st.messages|] == st.messages
      && st'.messages[|st.messages|] == Message(userId, input, User, sentAt, false)
      && st'.messages[|st.messages| + 1] == Message(placeholderId, "", Ai, placeholderAt, true)
      && st'.chatId == st.chatId
    ensures !IsBlank(input) && !st.isLoading && construction.Constructed? ==>
      && |st'.messages| == |st.messages| + 2
      && st'.isLoading
      && st'.stream == Some(Stream(ChatStream.Create(), placeholderId))
    ensures !IsBlank(input) && !st.isLoading && construction.ConstructorThrew? ==>
      && |st'.messages| == |st.messages| + 3
      && st'.messages[|st.messages| + 2] == Message(fallbackId, SendFailedText, Ai, failedAt, false)
      && !st'.isLoading
      && st'.stream == st.stream
  {
    if IsBlank(input) || st.isLoading then st
    else
      var withUser := AddMessage(st, input, User, false, userId, sentAt).0.(isLoading := true);
      var placeholder := Message(placeholderId, "", Ai, placeholderAt, true);
      var withPlaceholder := withUser.(messages := withUser.messages + [placeholder]);
      match construction
      case Constructed =>
        withPlaceholder.(stream := Some(Stream(ChatStream.Create(), placeholderId)))
      case ConstructorThrew =>
        AddMessage(withPlaceholder, SendFailedText, Ai, false, fallbackId, failedAt).0.(isLoading := false)
  }

  // ---------------------------------------------------------------------------
  // The four stream callbacks of sendMessage

  /** `onMessage(data)`: appends the delta to the placeholder's text and clears its typing flag. */
  function OnMessage(st: State, placeholder: int, data: string): (st': State)
    ensures st'.isLoading == st.isLoading && st'.chatId == st.chatId && st'.stream == st.stream
    ensures !HasMessage(st.messages, placeholder) ==> st'.messages == st.messages
    ensures HasMessage(st.messages, placeholder) ==>
      var i := FindMessage(st.messages, placeholder);
      && OthersUnchanged(st.messages, st'.messages, i)
      && st'.messages[i] == st.messages[i].(text := st.messages[i].text + data, isTyping := false)
  {
    var i := FindMessage(st.messages, placeholder);
    if i == -1 then st
    else
      var m := st.messages[i];
      st.(messages := st.messages[i := m.(text := m.text + data, isTyping := false)])
  }

  /**
   * `onError(error, errorMessage)`: the placeholder shows the error text only
   * when nothing but white space has arrived, so partial output is kept; its
   * typing flag is cleared, and loading stops in every case.
   */
  function OnError(st: State, placeholder: int, errorText: string): (st': State)
    ensures !st'.isLoading && st'.chatId == st.chatId && st'.stream == st.stream
    ensures !HasMessage(st.messages, placeholder) ==> st'.messages == st.messages
    ensures HasMessage(st.messages, placeholder) ==>
      var i := FindMessage(st.messages, placeholder);
      && OthersUnchanged(st.messages, st'.messages, i)
      && st'.messages[i].text == (if IsBlank(st.messages[i].text) then errorText else st.messages[i].text)
      && st'.messages[i] == st.messages[i].(text := st'.messages[i].text, isTyping := false)
  {
    var i := FindMessage(st.messages, placeholder);
    var msgs := if i == -1 then st.messages
      else
        var m := st.messages[i];
        st.messages[i := m.(text := if IsBlank(m.text) then errorText else m.text, isTyping := false)];
    st.(messages := msgs, isLoading := false)
  }

  /** `onEnd()`: clears the placeholder's typing flag, keeps its text, and stops loading. */
  function OnEnd(st: State, placeholder: int): (st': State)
    ensures !st'.isLoading && st'.chatId == st.chatId && st'.stream == st.stream
    ensures !HasMessage(st.messages, placeholder) ==> st'.messages == st.messages
    ensures HasMessage(st.messages, placeholder) ==>
      var i := FindMessage(st.messages, placeholder);
      && OthersUnchanged(st.messages, st'.messages, i)
      && st'.messages[i] == st.messages[i].(isTyping := false)
  {
    var i := FindMessage(st.messages, placeholder);
    var msgs := if i == -1 then st.messages else st.messages[i := st.messages[i].(isTyping := false)];
    st.(messages := msgs, isLoading := false)
  }

  /**
   * `onTimeout()`: a placeholder with nothing but white space gets the
   * timeout text and loses its typing flag; one with partial text is left
   * exactly as it is. Loading stops in every case.
   */
  function OnTimeout(st: State, placeholder: int): (st': State)
    ensures !st'.isLoading && st'.chatId == st.chatId && st'.stream == st.stream
    ensures !HasMessage(st.messages, placeholder) ==> st'.messages == st.messages
    ensures HasMessage(st.messages, placeholder) ==>
      var i := FindMessage(st.messages, placeholder);
      && OthersUnchanged(st.messages, st'.messages, i)
      && (IsBlank(st.messages[i].text) ==>
            st'.messages[i] == st.messages[i].(text := TimeoutText, isTyping := false))
      && (!IsBlank(st.messages[i].text) ==> st'.messages[i] == st.messages[i])
  {
    var i := FindMessage(st.messages, placeholder);
    var msgs := if i != -1 && IsBlank(st.messages[i].text)
      then st.messages[i := st.messages[i].(text := TimeoutText, isTyping := false)]
      else st.messages;
    st.(messages := msgs, isLoading := false)
  }

  /** Runs the callback the stream invoked; `onOpen` only logs. */
  function Apply(st: State, placeholder: int, cb: ChatStream.Callback): State {
    match cb
    case OnOpen => st
    case OnMessage(data) => OnMessage(st, placeholder, data)
    case OnError(_, text) => OnError(st, placeholder, text)
    case OnEnd => OnEnd(st, placeholder)
    case OnTimeout => OnTimeout(st, placeholder)
  }

  /** One event on the current stream, dispatched by `createChatSSE` to the callbacks of `sendMessage`. */
  function Deliver(st: State, e: ChatStream.Event): State {
    match st.stream
    case None => st
    case Some(Stream(source, placeholder)) =>
      var step := ChatStream.Dispatch(source, ChatStream.AllHandlers, e);
      var st1 := st.(stream := Some(Stream(step.source, placeholder)));
      if step.fired.Some? then Apply(st1, placeholder, step.fired.value) else st1
  }

  /** Events delivered one after another. */
  function DeliverAll(st: State, events: seq<ChatStream.Event>): State
    decreases |events|
  {
    if events == [] then st else DeliverAll(Deliver(st, events[0]), events[1..])
  }

  // ---------------------------------------------------------------------------
  // Resetting

  /** `cleanup()`: closes the current source, if any, and forgets it; the closed source is returned. */
  function Cleanup(st: State): (r: (State, Option<ChatStream.Source>))
    ensures r.0 == st.(stream := None)
    ensures st.stream.None? <==> r.1.None?
    ensures r.1.Some? ==> r.1.value.readyState == ChatStream.Closed
  {
    match st.stream
    case None => (st, None)
    case Some(s) => (st.(stream := None), Some(ChatStream.Close(s.source)))
  }

  /**
   * `startNewChat()`: closes the current source, then leaves exactly one
   * welcome message from the assistant, no loading, a new chat id and no stream.
   */
  function StartNewChat(st: State, newChatId: string, welcomeId: int, now: int)
    : (r: (State, Option<ChatStream.Source>))
    ensures r.0 == State([Message(welcomeId, WelcomeText, Ai, now, false)], false, newChatId, None)
    ensures r.1 == Cleanup(st).1
  {
    var (cleaned, closed) := Cleanup(st);
    var reset := cleaned.(messages := [], isLoading := false, chatId := newChatId);
    (AddMessage(reset, WelcomeText, Ai, false, welcomeId, now).0, closed)
  }

  /** `initializeChat()`: sets a new chat id and appends the welcome message. */
  function InitializeChat(st: State, newChatId: string, welcomeId: int, now: int): (st': State)
    ensures st'.messages == st.messages + [Message(welcomeId, WelcomeText, Ai, now, false)]
    ensures st'.chatId == newChatId && st'.isLoading == st.isLoading && st'.stream == st.stream
  {
    AddMessage(st.(chatId := newChatId), WelcomeText, Ai, false, welcomeId, now).0
  }

  // ---------------------------------------------------------------------------
  // Properties across events

  /** The current stream is still open or connecting. */
  predicate Live(st: State) {
    st.stream.Some? && st.stream.value.source.readyState != ChatStream.Closed
  }

  /**
   * The loading flag tracks the stream: a live stream means a reply is
   * loading, and a reply loading on a stream means that stream is live.
   */
  predicate Consistent(st: State) {
    (Live(st) ==> st.isLoading) && (st.isLoading && st.stream.Some? ==> Live(st))
  }

  /** Every event keeps the loading flag consistent with the stream. */
  lemma DeliverConsistent(st: State, e: ChatStream.Event)
    requires Consistent(st)
    ensures Consistent(Deliver(st, e))
  {
  }

  /** Sending, cleaning up and starting over keep the loading flag consistent with the stream. */
  lemma ResetsConsistent(st: State, input: string, ids: (int, int, int), times: (int, int, int),
                         c: Construction, chatId: string)
    requires Consistent(st)
    ensures Consistent(SendMessage(st, input, ids.0, ids.1, ids.2, times.0, times.1, times.2, c))
    ensures Consistent(Cleanup(st).0)
    ensures Consistent(StartNewChat(st, chatId, ids.0, times.0).0)
  {
  }

  /**
   * At most one stream is live: a send never replaces a stream that is
   * still open or connecting, because it is ignored while loading.
   */
  lemma SendNeverAbandonsLiveStream(st: State, input: string, ids: (int, int, int),
                                    times: (int, int, int), c: Construction)
    requires Consistent(st)
    ensures var st' := SendMessage(st, input, ids.0, ids.1, ids.2, times.0, times.1, times.2, c);
      st'.stream != st.stream ==> !Live(st)
  {
  }

  /** The parts joined in order. */
  function Concat(parts: seq<string>): string
    decreases |parts|
  {
    if parts == [] then "" else parts[0] + Concat(parts[1..])
  }

  /**
   * While the stream stays open, deltas touch nothing but the placeholder:
   * the other messages, the loading flag and the stream do not change, and
   * the placeholder keeps its position.
   */
  lemma {:induction false} DeltasTouchOnlyPlaceholder(st: State, events: seq<ChatStream.Event>)
    requires Live(st) && HasMessage(st.messages, st.stream.value.placeholder)
    requires forall k :: 0 <= k < |events| ==> events[k].Message?
    ensures var ph := st.stream.value.placeholder;
      var i := FindMessage(st.messages, ph);
      var st' := DeliverAll(st, events);
      && st'.stream == st.stream && st'.isLoading == st.isLoading
      && HasMessage(st'.messages, ph) && FindMessage(st'.messages, ph) == i
      && OthersUnchanged(st.messages, st'.messages, i)
    decreases |events|
  {
    if events != [] {
      var st1 := Deliver(st, events[0]);
      DeltaAppended(st, events[0]);
      DeltasTouchOnlyPlaceholder(st1, events[1..]);
    }
  }

  /**
   * While the stream stays open, the placeholder's text is what it held
   * followed by every delta in arrival order, and it stops typing once a
   * delta arrived.
   */
  lemma {:induction false} StreamedTextIsConcatenation(st: State, events: seq<ChatStream.Event>)
    requires Live(st) && HasMessage(st.messages, st.stream.value.placeholder)
    requires forall k :: 0 <= k < |events| ==> events[k].Message?
    ensures var i := FindMessage(st.messages, st.stream.value.placeholder);
      var st' := DeliverAll(st, events);
      && 0 <= i < |st'.messages|
      && st'.messages[i].text == st.messages[i].text + Concat(ChatStream.Payloads(events))
      && (events != [] ==> !st'.messages[i].isTyping)
    decreases |events|
  {
    DeltasTouchOnlyPlaceholder(st, events);
    if events != [] {
      var i := FindMessage(st.messages, st.stream.value.placeholder);
      var st1 := Deliver(st, events[0]);
      DeltaAppended(st, events[0]);
      StreamedTextIsConcatenation(st1, events[1..]);
      assert ChatStream.Payloads(events) == [events[0].data] + ChatStream.Payloads(events[1..]);
      ConcatAfterFirst(st.messages[i].text, events[0].data, ChatStream.Payloads(events[1..]));
      if events[1..] == [] {
        assert DeliverAll(st, events) == st1;
      }
    }
  }

  /** Joining a first part onto some text equals appending it before joining the rest. */
  lemma ConcatAfterFirst(text: string, first: string, rest: seq<string>)
    ensures text + Concat([first] + rest) == (text + first) + Concat(rest)
  {
    assert ([first] + rest)[1..] == rest;
  }

  /** One delta on an open stream is appended to the placeholder, which keeps its position. */
  lemma DeltaAppended(st: State, e: ChatStream.Event)
    requires Live(st) && HasMessage(st.messages, st.stream.value.placeholder) && e.Message?
    ensures var ph := st.stream.value.placeholder;
      var i := FindMessage(st.messages, ph);
      var st1 := Deliver(st, e);
      && st1.stream == st.stream && st1.isLoading == st.isLoading
      && HasMessage(st1.messages, ph) && FindMessage(st1.messages, ph) == i
      && OthersUnchanged(st.messages, st1.messages, i)
      && st1.messages[i].text == st.messages[i].text + e.data
      && !st1.messages[i].isTyping
  {
    var ph := st.stream.value.placeholder;
    var i := FindMessage(st.messages, ph);
    var st1 := Deliver(st, e);
    assert st1 == OnMessage(st, ph, e.data);
    assert st1.messages[i].id == ph;
    assert FindMessage(st1.messages, ph) == i by {
      assert forall k :: 0 <= k < i ==> st1.messages[k].id != ph;
    }
  }

  /**
   * After the turn ends (error, `end` or timeout), the stream is closed and
   * nothing that still arrives changes the messages or the loading flag.
   */
  lemma {:induction false} QuietAfterTerminal(st: State, e: ChatStream.Event, later: seq<ChatStream.Event>)
    requires Live(st)
    requires var step := ChatStream.Dispatch(st.stream.value.source, ChatStream.AllHandlers, e);
      step.fired.Some? && ChatStream.IsTerminal(step.fired.value)
    ensures var st1 := Deliver(st, e);
      && !st1.isLoading && st1.stream.Some? && !Live(st1)
      && DeliverAll(st1, later).messages == st1.messages
      && DeliverAll(st1, later).isLoading == st1.isLoading
  {
    ClosedStreamIgnored(Deliver(st, e), later);
  }

  /** A closed stream ignores every event. */
  lemma {:induction false} ClosedStreamIgnored(st: State, events: seq<ChatStream.Event>)
    requires st.stream.Some? && !Live(st)
    ensures DeliverAll(st, events).messages == st.messages
    ensures DeliverAll(st, events).isLoading == st.isLoading
    decreases |events|
  {
    if events != [] {
      var st1 := Deliver(st, events[0]);
      assert st1.messages == st.messages && st1.isLoading == st.isLoading;
      ClosedStreamIgnored(st1, events[1..]);
    }
  }
}

=== FILE: conversations.dfy ===
/**
 * The conversation persistence layer of the frontend's `api/conversations.js`:
 * a local cache of two keyed records (the ordered conversation list and the
 * per-conversation message lists) and six remote-first operations that fall
 * back to the local cache whenever the remote call fails.
 *
 * Storage is an immutable snapshot; each record is absent, holds text that
 * does not parse, or holds a parsed value. A remote call is reduced to its
 * outcome, and the generated id and the current ISO time are parameters.
 */
module Conversations {
  import opened Base

  /** The title a conversation gets when the caller gives none. */
  const DefaultTitle: string := "新对话"

  /** A conversation record as stored in the list. */
  datatype Conversation = Conversation(
    id: string, title: string, lastMessage: string, createdAt: string, updatedAt: string)

  /** A partial conversation record (`{ id, ...updates }`): every field may be absent. */
  datatype Fields = Fields(
    id: Option<string>, title: Option<string>, lastMessage: Option<string>,
    createdAt: Option<string>, updatedAt: Option<string>)

  /**
   * A stored message. `text` and `content` are the two fields a preview may
   * come from; an absent field and an empty one are both falsy, so both are "".
   */
  datatype Message = Message(id: string, text: string, content: string, sender: string, createdAt: string)

  /** One key of local storage: never written, holding text that does not parse, or a parsed value. */
  datatype Slot<+T> = Absent | Corrupt | Stored(value: T)

  /** The two keys the cache uses: the conversation list and the message map. */
  datatype Store = Store(conversations: Slot<seq<Conversation>>, messages: Slot<map<string, seq<Message>>>)

  /** The outcome of a remote call: the parsed response, or any failure (network, timeout, non-ok status). */
  datatype Remote<+T> = Ok(value: T) | Err

  /** What a remote-first operation returns, together with the storage it leaves behind. */
  datatype Reply<+T> = Reply(value: T, store: Store)

  // ---------------------------------------------------------------------------
  // List helpers

  /** Some entry of the list has this id. */
  predicate HasId(list: seq<Conversation>, id: string) {
    exists k :: 0 <= k < |list| && list[k].id == id
  }

  /** `findIndex(c => c.id === id)`: the first position holding this id, or -1. */
  function FindIndex(list: seq<Conversation>, id: string): (i: int)
    ensures -1 <= i < |list|
    ensures i == -1 <==> !HasId(list, id)
    ensures i >= 0 ==> list[i].id == id && forall k :: 0 <= k < i ==> list[k].id != id
    decreases |list|
  {
    if list == [] then -1
    else if list[0].id == id then 0
    else
      var j := FindIndex(list[1..], id);
      if j == -1 then -1 else j + 1
  }

  /** `filter(c => c.id !== id)`. */
  function WithoutId(list: seq<Conversation>, id: string): (r: seq<Conversation>)
    ensures |r| <= |list|
    ensures forall c :: c in r <==> c in list && c.id != id
    decreases |list|
  {
    if list == [] then []
    else if list[0].id == id then WithoutId(list[1..], id)
    else [list[0]] + WithoutId(list[1..], id)
  }

  /** Filtering distributes over concatenation, so the survivors keep their relative order. */
  lemma {:induction false} WithoutIdAppend(a: seq<Conversation>, b: seq<Conversation>, id: string)
    ensures WithoutId(a + b, id) == WithoutId(a, id) + WithoutId(b, id)
    decreases |a|
  {
    if a == [] {
      assert a + b == b;
    } else {
      assert (a + b)[1..] == a[1..] + b;
      WithoutIdAppend(a[1..], b, id);
    }
  }

  /** Filtering a list that does not hold the id changes nothing. */
  lemma {:induction false} WithoutIdAbsent(list: seq<Conversation>, id: string)
    requires !HasId(list, id)
    ensures WithoutId(list, id) == list
    decreases |list|
  {
    if list != [] {
      assert !HasId(list[1..], id) by {
        forall k | 0 <= k < |list[1..]| ensures list[1..][k].id != id {
          assert list[1..][k] == list[k + 1];
        }
      }
      WithoutIdAbsent(list[1..], id);
    }
  }

  /** `{ ...c, ...f }`: every field present in `f` replaces the one of `c`. */
  function Overlay(c: Conversation, f: Fields): (r: Conversation)
    ensures f.title.Some? ==> r.title == f.title.value
    ensures f.title.None? ==> r.title == c.title
    ensures f.lastMessage.Some? ==> r.lastMessage == f.lastMessage.value
    ensures f.lastMessage.None? ==> r.lastMessage == c.lastMessage
    ensures f.updatedAt.Some? ==> r.updatedAt == f.updatedAt.value
    ensures f.updatedAt.None? ==> r.updatedAt == c.updatedAt
    ensures f.createdAt.Some? ==> r.createdAt == f.createdAt.value
    ensures f.createdAt.None? ==> r.createdAt == c.createdAt
    ensures f.id.Some? ==> r.id == f.id.value
    ensures f.id.None? ==> r.id == c.id
  {
    Conversation(
      f.id.GetOr(c.id), f.title.GetOr(c.title), f.lastMessage.GetOr(c.lastMessage),
      f.createdAt.GetOr(c.createdAt), f.updatedAt.GetOr(c.updatedAt))
  }

  /** A complete record seen as a patch in which every field is present. */
  function AsFields(c: Conversation): Fields {
    Fields(Some(c.id), Some(c.title), Some(c.lastMessage), Some(c.createdAt), Some(c.updatedAt))
  }

  /** The text a message contributes as its conversation's preview: `text || content || ''`. */
  function Preview(m: Message): string {
    if m.text != "" then m.text else if m.content != "" then m.content else ""
  }

  // ---------------------------------------------------------------------------
  // Local cache

  /** `getLocalConversations`: the stored list, or `[]` when the key is missing or does not parse. */
  function LocalConversations(s: Store): (list: seq<Conversation>)
    ensures s.conversations.Stored? ==> list == s.conversations.value
    ensures !s.conversations.Stored? ==> list == []
  {
    if s.conversations.Stored? then s.conversations.value else []
  }

  /** `getLocalMessages`: the stored list of that conversation, or `[]` when there is none or the map does not parse. */
  function LocalMessages(s: Store, conversationId: string): (list: seq<Message>)
    ensures s.messages.Stored? && conversationId in s.messages.value ==> list == s.messages.value[conversationId]
    ensures !(s.messages.Stored? && conversationId in s.messages.value) ==> list == []
  {
    if s.messages.Stored? && conversationId in s.messages.value then s.messages.value[conversationId] else []
  }

  /**
   * `saveConversationToLocal`: a conversation whose id is already listed
   * replaces that entry in place; a new one is put at the front. The list is
   * read through `getLocalConversations`, so an unparseable list is replaced.
   */
  function SaveConversationToLocal(s: Store, c: Conversation): (s': Store)
    ensures s'.messages == s.messages && s'.conversations.Stored?
    ensures var before, after := LocalConversations(s), LocalConversations(s');
      && c in after
      && (HasId(before, c.id) ==>
            && |after| == |before|
            && after[FindIndex(before, c.id)] == c
            && forall k :: 0 <= k < |before| && k != FindIndex(before, c.id) ==> after[k] == before[k])
      && (!HasId(before, c.id) ==> after == [c] + before)
  {
    var list := LocalConversations(s);
    var i := FindIndex(list, c.id);
    var updated := if i >= 0 then list[i := c] else [c] + list;
    assert updated[if i >= 0 then i else 0] == c;
    s.(conversations := Stored(updated))
  }

  /**
   * `updateConversationInLocal`: overlays the patch on the first entry with
   * the patch's id and writes the list back; without such an entry nothing
   * is written (a patch never inserts).
   */
  function UpdateConversationInLocal(s: Store, f: Fields): (s': Store)
    ensures s'.messages == s.messages
    ensures var before, after := LocalConversations(s), LocalConversations(s');
      && (f.id.None? || !HasId(before, f.id.value) ==> s' == s)
      && (f.id.Some? && HasId(before, f.id.value) ==>
            && |after| == |before|
            && after[FindIndex(before, f.id.value)] == Overlay(before[FindIndex(before, f.id.value)], f)
            && forall k :: 0 <= k < |before| && k != FindIndex(before, f.id.value) ==> after[k] == before[k])
  {
    var list := LocalConversations(s);
    if f.id.None? then s
    else
      var i := FindIndex(list, f.id.value);
      if i >= 0 then s.(conversations := Stored(list[i := Overlay(list[i], f)])) else s
  }

  /**
   * `deleteConversationFromLocal`: writes the list back without that id and,
   * when the conversation has stored messages, drops its entry from the
   * message map.
   */
  function DeleteConversationFromLocal(s: Store, id: string): (s': Store)
    ensures LocalConversations(s') == WithoutId(LocalConversations(s), id)
    ensures !HasId(LocalConversations(s'), id)
    ensures LocalMessages(s', id) == []
    ensures forall other :: other != id ==> LocalMessages(s', other) == LocalMessages(s, other)
    ensures LocalMessages(s, id) == [] ==> s'.messages == s.messages
  {
    var filtered := WithoutId(LocalConversations(s), id);
    var s1 := s.(conversations := Stored(filtered));
    if |LocalMessages(s, id)| > 0 then s1.(messages := Stored(s.messages.value - {id})) else s1
  }

  /**
   * `saveMessageToLocal`: appends the message to the conversation's list
   * (creating the list if needed), then sets the conversation's
   * `lastMessage` and `updatedAt` from the message when the conversation is
   * listed. A message map that does not parse makes the whole write a no-op.
   */
  function SaveMessageToLocal(s: Store, conversationId: string, m: Message): (s': Store)
    ensures s.messages.Corrupt? ==> s' == s
    ensures !s.messages.Corrupt? ==>
      && LocalMessages(s', conversationId) == LocalMessages(s, conversationId) + [m]
      && (forall other :: other != conversationId ==> LocalMessages(s', other) == LocalMessages(s, other))
    ensures var before, after := LocalConversations(s), LocalConversations(s');
      !s.messages.Corrupt? && HasId(before, conversationId) ==>
        var i := FindIndex(before, conversationId);
        && |after| == |before|
        && after[i] == before[i].(lastMessage := Preview(m), updatedAt := m.createdAt)
        && forall k :: 0 <= k < |before| && k != i ==> after[k] == before[k]
    ensures !HasId(LocalConversations(s), conversationId) ==> s'.conversations == s.conversations
  {
    if s.messages.Corrupt? then s
    else
      var all := if s.messages.Stored? then s.messages.value else map[];
      var list := if conversationId in all then all[conversationId] else [];
      var s1 := s.(messages := Stored(all[conversationId := list + [m]]));
      var convs := LocalConversations(s);
      var i := FindIndex(convs, conversationId);
      if i >= 0 then
        s1.(conversations := Stored(convs[i := convs[i].(lastMessage := Preview(m), updatedAt := m.createdAt)]))
      else s1
  }

  /** Saving the same conversation twice has the effect of saving it once. */
  lemma SaveConversationIdempotent(s: Store, c: Conversation)
    ensures SaveConversationToLocal(SaveConversationToLocal(s, c), c) == SaveConversationToLocal(s, c)
  {
    var before := LocalConversations(s);
    var once := LocalConversations(SaveConversationToLocal(s, c));
    if HasId(before, c.id) {
      var i := FindIndex(before, c.id);
      assert forall k :: 0 <= k < i ==> once[k].id != c.id;
      assert FindIndex(once, c.id) == i;
      assert once[i := c] == once;
    } else {
      assert FindIndex(once, c.id) == 0;
      assert once[0 := c] == once;
    }
  }

  /** Applying the same patch twice has the effect of applying it once. */
  lemma UpdateConversationIdempotent(s: Store, f: Fields)
    ensures UpdateConversationInLocal(UpdateConversationInLocal(s, f), f) == UpdateConversationInLocal(s, f)
  {
    var before := LocalConversations(s);
    if f.id.Some? && HasId(before, f.id.value) {
      var i := FindIndex(before, f.id.value);
      var once := LocalConversations(UpdateConversationInLocal(s, f));
      assert once[i].id == f.id.value;
      assert forall k :: 0 <= k < i ==> once[k].id != f.id.value;
      assert FindIndex(once, f.id.value) == i;
      assert Overlay(Overlay(before[i], f), f) == Overlay(before[i], f);
      assert once[i := Overlay(once[i], f)] == once;
    }
  }

  /** Deleting a conversation twice has the effect of deleting it once. */
  lemma DeleteConversationIdempotent(s: Store, id: string)
    ensures DeleteConversationFromLocal(DeleteConversationFromLocal(s, id), id) == DeleteConversationFromLocal(s, id)
  {
    var once := DeleteConversationFromLocal(s, id);
    WithoutIdAbsent(LocalConversations(once), id);
  }

  // ---------------------------------------------------------------------------
  // Remote-first operations

  /** `getConversations`: the remote list when the call succeeds, else the local one; storage is not touched. */
  function GetConversations(remote: Remote<seq<Conversation>>, s: Store): (r: Reply<seq<Conversation>>)
    ensures r.store == s
    ensures remote.Ok? ==> r.value == remote.value
    ensures remote.Err? ==> r.value == LocalConversations(s)
  {
    match remote
    case Ok(list) => Reply(list, s)
    case Err => Reply(LocalConversations(s), s)
  }

  /**
   * `createConversation(title = '新对话')`: the remote record when the call
   * succeeds, else a local record with the generated id, the title, an empty
   * preview and the two timestamps, which the code reads from the clock one
   * after the other; either way the record is saved locally and can be
   * listed afterwards.
   */
  function CreateConversation(remote: Remote<Conversation>, s: Store, title: Option<string>,
                              generatedId: string, createdAt: string, updatedAt: string)
    : (r: Reply<Conversation>)
    ensures remote.Ok? ==> r.value == remote.value
    ensures remote.Err? ==> r.value == Conversation(generatedId, title.GetOr(DefaultTitle), "", createdAt, updatedAt)
    ensures r.store == SaveConversationToLocal(s, r.value)
    ensures r.value in LocalConversations(r.store)
  {
    var c := match remote
      case Ok(created) => created
      case Err => Conversation(generatedId, title.GetOr(DefaultTitle), "", createdAt, updatedAt);
    Reply(c, SaveConversationToLocal(s, c))
  }

  /**
   * `updateConversation(id, updates)`: on success the remote record is
   * overlaid on the local entry and returned; on failure `{ id, ...updates,
   * updatedAt: now }` is overlaid locally and `{ id, ...updates }` returned.
   * A field `id` inside `updates` wins over the argument, as the spread does.
   */
  function UpdateConversation(remote: Remote<Conversation>, s: Store, id: string, updates: Fields,
                              now: string): (r: Reply<Fields>)
    ensures remote.Ok? ==> r == Reply(AsFields(remote.value), UpdateConversationInLocal(s, AsFields(remote.value)))
    ensures remote.Err? ==>
      && r.value == updates.(id := Some(updates.id.GetOr(id)))
      && r.store == UpdateConversationInLocal(s, r.value.(updatedAt := Some(now)))
    ensures r.store.messages == s.messages
  {
    match remote
    case Ok(c) => Reply(AsFields(c), UpdateConversationInLocal(s, AsFields(c)))
    case Err =>
      var result := updates.(id := Some(updates.id.GetOr(id)));
      Reply(result, UpdateConversationInLocal(s, result.(updatedAt := Some(now))))
  }

  /** `deleteConversation`: whatever the remote outcome, deletes locally and returns true. */
  function DeleteConversation(remote: Remote<()>, s: Store, id: string): (r: Reply<bool>)
    ensures r.value
    ensures r.store == DeleteConversationFromLocal(s, id)
    ensures !HasId(LocalConversations(r.store), id) && LocalMessages(r.store, id) == []
  {
    Reply(true, DeleteConversationFromLocal(s, id))
  }

  /** `getConversationMessages`: the remote list when the call succeeds, else the local one; storage is not touched. */
  function GetConversationMessages(remote: Remote<seq<Message>>, s: Store, conversationId: string)
    : (r: Reply<seq<Message>>)
    ensures r.store == s
    ensures remote.Ok? ==> r.value == remote.value
    ensures remote.Err? ==> r.value == LocalMessages(s, conversationId)
  {
    match remote
    case Ok(list) => Reply(list, s)
    case Err => Reply(LocalMessages(s, conversationId), s)
  }

  /**
   * `saveMessageToConversation`: the remote message when the call succeeds,
   * else `{ ...message, id: generated, createdAt: now }` (the generated id
   * overrides any id the caller gave); either way the returned message is
   * appended locally, so it can be read back unless the message map does
   * not parse.
   */
  function SaveMessageToConversation(remote: Remote<Message>, s: Store, conversationId: string, message: Message,
                                     generatedId: string, now: string): (r: Reply<Message>)
    ensures remote.Ok? ==> r.value == remote.value
    ensures remote.Err? ==> r.value == message.(id := generatedId, createdAt := now)
    ensures r.store == SaveMessageToLocal(s, conversationId, r.value)
    ensures !s.messages.Corrupt? ==>
      LocalMessages(r.store, conversationId) == LocalMessages(s, conversationId) + [r.value]
  {
    var m := match remote
      case Ok(saved) => saved
      case Err => message.(id := generatedId, createdAt := now);
    Reply(m, SaveMessageToLocal(s, conversationId, m))
  }

  // ---------------------------------------------------------------------------
  // Runs of failed remote writes

  /** The messages as the fallback stores them: each with its generated id and its time. */
  function Stamped(messages: seq<Message>, ids: seq<string>, times: seq<string>): (r: seq<Message>)
    requires |ids| == |messages| && |times| == |messages|
    ensures |r| == |messages|
    ensures forall k :: 0 <= k < |r| ==> r[k] == messages[k].(id := ids[k], createdAt := times[k])
    decreases |messages|
  {
    if messages == [] then []
    else [messages[0].(id := ids[0], createdAt := times[0])]
         + Stamped(messages[1..], ids[1..], times[1..])
  }

  /** Saves the messages one after another to one conversation while every remote call fails. */
  function SaveAllOffline(s: Store, conversationId: string, messages: seq<Message>,
                          ids: seq<string>, times: seq<string>): Store
    requires |ids| == |messages| && |times| == |messages|
    decreases |messages|
  {
    if messages == [] then s
    else
      var r := SaveMessageToConversation(Err, s, conversationId, messages[0], ids[0], times[0]);
      SaveAllOffline(r.store, conversationId, messages[1..], ids[1..], times[1..])
  }

  /**
   * Writes are not lost while the backend is down: after saving messages
   * with every remote call failing, reading the conversation's messages
   * (remote failing too) returns the earlier ones followed by every saved
   * one, in order, with its generated id — provided the message map parses.
   */
  lemma {:induction false} OfflineMessagesReadBack(s: Store, conversationId: string, messages: seq<Message>,
                                                   ids: seq<string>, times: seq<string>)
    requires |ids| == |messages| && |times| == |messages|
    requires !s.messages.Corrupt?
    ensures var final := SaveAllOffline(s, conversationId, messages, ids, times);
      GetConversationMessages(Err, final, conversationId).value
        == LocalMessages(s, conversationId) + Stamped(messages, ids, times)
    decreases |messages|
  {
    if messages != [] {
      var r := SaveMessageToConversation(Err, s, conversationId, messages[0], ids[0], times[0]);
      assert !r.store.messages.Corrupt?;
      OfflineMessagesReadBack(r.store, conversationId, messages[1..], ids[1..], times[1..]);
      assert LocalMessages(r.store, conversationId) == LocalMessages(s, conversationId) + [r.value];
      assert Stamped(messages, ids, times) == [r.value] + Stamped(messages[1..], ids[1..], times[1..]);
    }
  }
}

=== FILE: guardrail.dfy ===
/**
 * The input guardrail of the backend (`SafeInputGuardrail.validate`): the
 * user's text is lower-cased, split on runs of non-word characters (`\W+`,
 * where word characters are ASCII letters, digits and `_`), and rejected at
 * the first piece that is a sensitive word.
 */
module Guardrail {
  import opened Base

  const FailurePrefix: string := "Sensitive word detected: "

  /** Membership in the set of sensitive words. */
  predicate IsSensitive(w: string) {
    w == "kill" || w == "evil"
  }

  /** The guardrail's verdict. */
  datatype Verdict = Passed | Fatal(message: string)

  /** A character of the regular-expression class `\w` (without the Unicode flag). */
  predicate IsWordChar(c: char) {
    ('a' <= c <= 'z') || ('A' <= c <= 'Z') || ('0' <= c <= '9') || c == '_'
  }

  /** Every character is a word character. */
  predicate IsWord(s: string) {
    forall k :: 0 <= k < |s| ==> IsWordChar(s[k])
  }

  /** ASCII lower-casing of one character. */
  function LowerChar(c: char): char {
    if 'A' <= c <= 'Z' then (c as int + 32) as char else c
  }

  /** `toLowerCase()` restricted to ASCII: upper-case letters become lower-case, the rest stays. */
  function Lower(s: string): (r: string)
    ensures |r| == |s|
    ensures forall k :: 0 <= k < |s| ==> r[k] == LowerChar(s[k])
  {
    seq(|s|, k requires 0 <= k < |s| => LowerChar(s[k]))
  }

  /** Every character of `s[lo..hi]` is a word character. */
  predicate WordRun(s: string, lo: int, hi: int)
    requires 0 <= lo <= hi <= |s|
  {
    forall k :: lo <= k < hi ==> IsWordChar(s[k])
  }

  /** No character of `s[lo..hi]` is a word character. */
  predicate NonWordRun(s: string, lo: int, hi: int)
    requires 0 <= lo <= hi <= |s|
  {
    forall k :: lo <= k < hi ==> !IsWordChar(s[k])
  }

  /** Where the run of word characters starting at `n` ends. */
  function WordEnd(s: string, n: nat): (e: nat)
    requires n <= |s|
    ensures n <= e <= |s| && WordRun(s, n, e)
    ensures e < |s| ==> !IsWordChar(s[e])
    decreases |s| - n
  {
    if n < |s| && IsWordChar(s[n]) then WordEnd(s, n + 1) else n
  }

  /** Where the run of non-word characters starting at `n` ends. */
  function SkipEnd(s: string, n: nat): (e: nat)
    requires n <= |s|
    ensures n <= e <= |s| && NonWordRun(s, n, e)
    ensures e < |s| ==> IsWordChar(s[e])
    decreases |s| - n
  {
    if n < |s| && !IsWordChar(s[n]) then SkipEnd(s, n + 1) else n
  }

  /**
   * The pieces of `s[n..]` between maximal runs of non-word characters, left
   * to right: one more piece than there are runs, so a run at the end gives
   * a trailing "". Position 0 also yields a leading "" when `s` starts with
   * a non-word character.
   */
  function PiecesFrom(s: string, n: nat): (ps: seq<string>)
    requires n <= |s|
    ensures |ps| >= 1
    ensures forall k :: 0 <= k < |ps| ==> IsWord(ps[k])
    decreases |s| - n
  {
    var e := WordEnd(s, n);
    if e == |s| then [s[n..e]] else [s[n..e]] + PiecesFrom(s, SkipEnd(s, e))
  }

  /** Removes the empty strings at the end, as `split` does. */
  function DropTrailingEmpty(ps: seq<string>): (r: seq<string>)
    ensures |r| <= |ps| && r == ps[..|r|]
    ensures forall k :: |r| <= k < |ps| ==> ps[k] == ""
    ensures r == [] || r[|r| - 1] != ""
    decreases |ps|
  {
    if ps != [] && ps[|ps| - 1] == "" then DropTrailingEmpty(ps[..|ps| - 1]) else ps
  }

  /**
   * Java's `s.split("\\W+")`: the input alone when the pattern never matches
   * (so "" splits into [""]), otherwise the pieces without trailing empties.
   */
  function JavaSplit(s: string): (ts: seq<string>)
    ensures IsWord(s) ==> ts == [s]
    ensures !IsWord(s) ==> ts == [] || ts[|ts| - 1] != ""
    ensures forall k :: 0 <= k < |ts| ==> IsWord(ts[k])
  {
    if IsWord(s) then [s] else DropTrailingEmpty(PiecesFrom(s, 0))
  }

  /** The words `validate` iterates over. */
  function Tokens(input: string): seq<string> {
    JavaSplit(Lower(input))
  }

  /** The first sensitive word of the list, if any. */
  function FirstSensitive(words: seq<string>): (r: Option<string>)
    ensures r.None? <==> forall k :: 0 <= k < |words| ==> !IsSensitive(words[k])
    ensures r.Some? ==> exists k :: (0 <= k < |words| && words[k] == r.value && IsSensitive(r.value)
      && forall j :: 0 <= j < k ==> !IsSensitive(words[j]))
    decreases |words|
  {
    if words == [] then None
    else if IsSensitive(words[0]) then Some(words[0])
    else
      var r := FirstSensitive(words[1..]);
      assert r.Some? ==> exists k :: (0 <= k < |words[1..]| && words[1..][k] == r.value
        && forall j :: 0 <= j < k ==> !IsSensitive(words[1..][j]));
      r
  }

  /**
   * `validate`: fatal with "Sensitive word detected: " and the first
   * sensitive token, in token order, when there is one; success otherwise.
   */
  function Validate(input: string): (r: Verdict)
    ensures r.Fatal? <==> exists k :: 0 <= k < |Tokens(input)| && IsSensitive(Tokens(input)[k])
    ensures r.Fatal? ==> exists k :: (0 <= k < |Tokens(input)| && IsSensitive(Tokens(input)[k])
      && r.message == FailurePrefix + Tokens(input)[k]
      && forall j :: 0 <= j < k ==> !IsSensitive(Tokens(input)[j]))
  {
    match FirstSensitive(Tokens(input))
    case Some(w) => Fatal(FailurePrefix + w)
    case None => Passed
  }

  // ---------------------------------------------------------------------------
  // Tokens as whole words

  /** `w` occurs at `i` as a whole word: not preceded or followed by a word character. */
  predicate WholeWordAt(s: string, i: int, w: string) {
    && 0 <= i && i + |w| <= |s| && s[i..i + |w|] == w
    && (i == 0 || !IsWordChar(s[i - 1]))
    && (i + |w| == |s| || !IsWordChar(s[i + |w|]))
  }

  /** A word run that stops at a non-word character (or the end) is the one `WordEnd` finds. */
  lemma {:induction false} WordEndUnique(s: string, n: nat, e: nat)
    requires n <= e <= |s| && WordRun(s, n, e) && (e == |s| || !IsWordChar(s[e]))
    ensures WordEnd(s, n) == e
    decreases e - n
  {
    if n < e {
      assert IsWordChar(s[n]);
      WordEndUnique(s, n + 1, e);
    }
  }

  /** At a word boundary `n`, the first piece is `w` exactly when `w` is a whole word at `n`. */
  lemma FirstPiece(s: string, n: nat, w: string)
    requires n <= |s| && (n == 0 || !IsWordChar(s[n - 1])) && w != "" && IsWord(w)
    ensures WholeWordAt(s, n, w) <==> s[n..WordEnd(s, n)] == w
  {
    if WholeWordAt(s, n, w) {
      assert WordRun(s, n, n + |w|) by {
        forall k | n <= k < n + |w| ensures IsWordChar(s[k]) {
          assert s[k] == w[k - n];
        }
      }
      WordEndUnique(s, n, n + |w|);
    }
  }

  /** A whole word that starts after `n`, a word boundary, starts after the next non-word run. */
  lemma LaterWholeWord(s: string, n: nat, i: int, w: string)
    requires n <= |s| && n < i && w != "" && IsWordChar(w[0]) && WholeWordAt(s, i, w)
    ensures WordEnd(s, n) < |s| && SkipEnd(s, WordEnd(s, n)) <= i
  {
    assert IsWordChar(s[i]) && !IsWordChar(s[i - 1]);
  }

  /**
   * From a word boundary `n` on, a non-empty word is one of the pieces
   * exactly when it occurs at or after `n` as a whole word.
   */
  lemma {:induction false} PiecesAreWholeWords(s: string, n: nat, w: string)
    requires n <= |s| && (n == 0 || !IsWordChar(s[n - 1])) && w != "" && IsWord(w)
    ensures w in PiecesFrom(s, n) <==> exists i :: n <= i && WholeWordAt(s, i, w)
    decreases |s| - n
  {
    var e := WordEnd(s, n);
    FirstPiece(s, n, w);
    assert IsWordChar(w[0]);
    if exists i :: n < i && WholeWordAt(s, i, w) {
      var i :| n < i && WholeWordAt(s, i, w);
      LaterWholeWord(s, n, i, w);
    }
    if e < |s| {
      var m := SkipEnd(s, e);
      assert !IsWordChar(s[m - 1]);
      PiecesAreWholeWords(s, m, w);
      assert PiecesFrom(s, n) == [s[n..e]] + PiecesFrom(s, m);
      if exists i :: n < i && WholeWordAt(s, i, w) {
        var i :| n < i && WholeWordAt(s, i, w);
        LaterWholeWord(s, n, i, w);
        assert m <= i && WholeWordAt(s, i, w);
      }
    } else {
      assert PiecesFrom(s, n) == [s[n..e]];
    }
  }

  /** Without a non-word character there is a single piece, the input itself. */
  lemma OnePiece(s: string)
    requires IsWord(s)
    ensures PiecesFrom(s, 0) == [s]
  {
    WordEndUnique(s, 0, |s|);
    assert s[0..|s|] == s;
  }

  /** A non-empty word is a token of `split` exactly when it occurs as a whole word. */
  lemma SplitTokensAreWholeWords(s: string, w: string)
    requires w != "" && IsWord(w)
    ensures w in JavaSplit(s) <==> exists i :: WholeWordAt(s, i, w)
  {
    PiecesAreWholeWords(s, 0, w);
    if IsWord(s) {
      OnePiece(s);
    }
  }

  /** The lower-cased input has a sensitive word standing as a whole word at `i`. */
  predicate SensitiveAt(input: string, i: int) {
    WholeWordAt(Lower(input), i, "kill") || WholeWordAt(Lower(input), i, "evil")
  }

  /**
   * The guardrail rejects exactly the inputs in which, after lower-casing,
   * "kill" or "evil" stands as a whole word: a substring of a longer word
   * ("skill", "evildoer", "kill_1") does not count.
   */
  lemma ValidateRejectsWholeWords(input: string)
    ensures Validate(input).Fatal? <==> exists i :: SensitiveAt(input, i)
  {
    var low := Lower(input);
    var toks := Tokens(input);
    assert IsWord("kill") && IsWord("evil");
    SplitTokensAreWholeWords(low, "kill");
    SplitTokensAreWholeWords(low, "evil");
    SensitiveTokenIn(toks);
    if Validate(input).Fatal? {
      if "kill" in toks {
        var i :| WholeWordAt(low, i, "kill");
        assert SensitiveAt(input, i);
      } else {
        var i :| WholeWordAt(low, i, "evil");
        assert SensitiveAt(input, i);
      }
    }
    if exists i :: SensitiveAt(input, i) {
      var i :| SensitiveAt(input, i);
      assert WholeWordAt(low, i, "kill") || WholeWordAt(low, i, "evil");
    }
  }

  /** A list has a sensitive word exactly when "kill" or "evil" is in it. */
  lemma SensitiveTokenIn(words: seq<string>)
    ensures (exists k :: 0 <= k < |words| && IsSensitive(words[k])) <==> "kill" in words || "evil" in words
  {
  }

  /** Dropping trailing empty pieces keeps the first sensitive one, which is never empty. */
  lemma {:induction false} FirstSensitiveKept(ps: seq<string>, r: seq<string>, w: string)
    requires FirstSensitive(ps) == Some(w)
    requires |r| <= |ps| && r == ps[..|r|]
    requires forall k :: |r| <= k < |ps| ==> ps[k] == ""
    ensures FirstSensitive(r) == Some(w)
    decreases |ps|
  {
    var k :| 0 <= k < |ps| && ps[k] == w && IsSensitive(w) && forall j :: 0 <= j < k ==> !IsSensitive(ps[j]);
    assert ps[k] != "";
    assert k < |r|;
    assert r[0] == ps[0];
    if !IsSensitive(ps[0]) {
      assert r[1..] == ps[1..][..|r| - 1];
      FirstSensitiveKept(ps[1..], r[1..], w);
    }
  }

  /**
   * From a word boundary `n`, when the leftmost sensitive whole word at or
   * after `n` is `w` at `i`, the first sensitive piece is `w`.
   */
  lemma {:induction false} LeftmostPiece(s: string, n: nat, i: nat, w: string)
    requires n <= i && n <= |s| && (n == 0 || !IsWordChar(s[n - 1]))
    requires IsSensitive(w) && WholeWordAt(s, i, w)
    requires forall j :: n <= j < i ==> !WholeWordAt(s, j, "kill") && !WholeWordAt(s, j, "evil")
    ensures FirstSensitive(PiecesFrom(s, n)) == Some(w)
    decreases |s| - n
  {
    var e := WordEnd(s, n);
    assert IsWord(w) && IsWordChar(w[0]);
    if n == i {
      FirstPiece(s, n, w);
    } else {
      LaterWholeWord(s, n, i, w);
      var m := SkipEnd(s, e);
      assert PiecesFrom(s, n) == [s[n..e]] + PiecesFrom(s, m);
      var p := s[n..e];
      assert !WholeWordAt(s, n, "kill") && !WholeWordAt(s, n, "evil");
      assert IsWord(p) by { assert WordRun(s, n, e); }
      assert !IsSensitive(p) by {
        if p == "kill" || p == "evil" {
          FirstPiece(s, n, p);
        }
      }
      assert !IsWordChar(s[m - 1]);
      LeftmostPiece(s, m, i, w);
    }
  }

  /**
   * The message names the leftmost sensitive word: when the first place
   * where "kill" or "evil" stands as a whole word (after lower-casing) holds
   * `w`, the verdict is fatal with `w`.
   */
  lemma ValidateNamesLeftmost(input: string, i: nat, w: string)
    requires IsSensitive(w) && WholeWordAt(Lower(input), i, w)
    requires forall j :: 0 <= j < i ==> !SensitiveAt(input, j)
    ensures Validate(input) == Fatal(FailurePrefix + w)
  {
    var s := Lower(input);
    if IsWord(s) {
      assert i == 0 && |w| == |s|;
      assert s == w by { assert s[0..|s|] == s; }
      assert Tokens(input) == [w];
    } else {
      var ps := PiecesFrom(s, 0);
      forall j | 0 <= j < i ensures !WholeWordAt(s, j, "kill") && !WholeWordAt(s, j, "evil") {
        assert !SensitiveAt(input, j);
      }
      LeftmostPiece(s, 0, i, w);
      FirstSensitiveKept(ps, DropTrailingEmpty(ps), w);
    }
  }

  /** Matching ignores case: an input and its lower-cased form get the same verdict. */
  lemma ValidateIgnoresCase(input: string)
    ensures Validate(input) == Validate(Lower(input))
  {
    assert Lower(Lower(input)) == Lower(input);
    assert Tokens(Lower(input)) == Tokens(input);
  }

  /** An input that contains "kill" only inside a longer word passes. */
  lemma SkillPasses(input: string)
    requires input == "skill"
    ensures Validate(input) == Passed
  {
    ValidateRejectsWholeWords(input);
    SkillHasNoWholeWord(input);
  }

  lemma SkillHasNoWholeWord(input: string)
    requires input == "skill"
    ensures forall i :: !SensitiveAt(input, i)
  {
    assert Lower(input) == input;
    forall i ensures !SensitiveAt(input, i) {
      if i == 0 {
        assert input[..4][0] == 's';
      } else if i == 1 {
        assert IsWordChar(input[0]);
      }
    }
  }

  /** Underscore and digits are word characters: "kill_1" is one token and passes. */
  lemma UnderscoreJoinsWords(input: string)
    requires input == "kill_1"
    ensures Validate(input) == Passed
  {
    ValidateRejectsWholeWords(input);
    KillUnderscoreHasNoWholeWord(input);
  }

  lemma KillUnderscoreHasNoWholeWord(input: string)
    requires input == "kill_1"
    ensures forall i :: !SensitiveAt(input, i)
  {
    assert Lower(input) == input;
    forall i ensures !SensitiveAt(input, i) {
      if i == 0 {
        assert IsWordChar(input[4]);
      } else if i == 1 {
        assert input[1..5][0] == 'i';
      } else if i == 2 {
        assert input[2..6][0] == 'l';
      }
    }
  }

  /** Upper-case input is rejected, and the message names the lower-cased word. */
  lemma CapitalsRejected(input: string)
    requires input == "KILL"
    ensures Validate(input) == Fatal("Sensitive word detected: kill")
  {
    KillLowered(input);
    assert IsWord("kill");
    assert Tokens(input) == ["kill"];
  }

  lemma KillLowered(input: string)
    requires input == "KILL"
    ensures Lower(input) == "kill"
  {
  }

  /** A hyphen separates words: "kill-me" is rejected at "kill". */
  lemma HyphenSeparatesWords(input: string)
    requires input == "kill-me"
    ensures Validate(input) == Fatal("Sensitive word detected: kill")
  {
    KillMeLowered(input);
    KillMeSplit(input);
  }

  lemma KillMeSplit(s: string)
    requires s == "kill-me"
    ensures JavaSplit(s) == ["kill", "me"]
  {
    WordEndUnique(s, 0, 4);
    assert !IsWordChar(s[4]) && IsWordChar(s[5]);
    assert SkipEnd(s, 4) == 5;
    WordEndUnique(s, 5, 7);
    assert PiecesFrom(s, 5) == [s[5..7]];
    assert PiecesFrom(s, 0) == [s[0..4]] + PiecesFrom(s, 5);
    assert s[0..4] == "kill" && s[5..7] == "me";
    assert !IsWord(s);
    assert DropTrailingEmpty(["kill", "me"]) == ["kill", "me"];
  }

  lemma KillMeLowered(input: string)
    requires input == "kill-me"
    ensures Lower(input) == input
  {
  }

  /** Input without any word character passes. */
  lemma NoWordsPass()
    ensures Validate("") == Passed
    ensures Validate("!!!") == Passed
  {
    assert Lower("") == "";
    assert Lower("!!!") == "!!!";
    ValidateRejectsWholeWords("");
    ValidateRejectsWholeWords("!!!");
  }
}

=== FILE: strings.dfy ===
/** String helpers: the handful of `String.prototype` operations the model needs. */
module Strings {

  /** `s.startsWith(p)`. */
  predicate IsPrefix(p: string, s: string) {
    |p| <= |s| && s[..|p|] == p
  }

  /** `s.includes(t)`: `t` occurs somewhere in `s`. */
  predicate Contains(s: string, t: string)
    decreases |s|
  {
    IsPrefix(t, s) || (|s| > 0 && Contains(s[1..], t))
  }

  /** An occurrence of `t` at a known position is found by `Contains`. */
  lemma {:induction false} ContainsAt(s: string, t: string, i: nat)
    requires i + |t| <= |s| && s[i..i + |t|] == t
    ensures Contains(s, t)
    decreases i
  {
    if i == 0 {
      assert s[..|t|] == t;
    } else {
      assert s[1..][i - 1..i - 1 + |t|] == s[i..i + |t|];
      ContainsAt(s[1..], t, i - 1);
    }
  }

  /** A prefix is contained. */
  lemma PrefixContained(p: string, s: string)
    requires IsPrefix(p, s)
    ensures Contains(s, p)
  {
  }

  /**
   * `x` and `t` disagree at some position both of them have, so `t` cannot
   * start at the beginning of `x` whatever follows `x`.
   */
  predicate Diverge(x: string, t: string) {
    !IsPrefix(t, x) && !IsPrefix(x, t)
  }

  /** A string that diverges from `t` keeps `t` from starting there after any extension. */
  lemma DivergeExtended(x: string, b: string, t: string)
    requires Diverge(x, t)
    ensures !IsPrefix(t, x + b)
  {
    if |t| <= |x| {
      assert (x + b)[..|t|] == x[..|t|];
    } else {
      assert (x + b)[..|x|] == x;
    }
  }

  /**
   * When no occurrence of `t` can start inside `p`, the string `p + b`
   * contains `t` exactly when `b` does.
   */
  lemma {:induction false} ContainsAfterPrefix(p: string, b: string, t: string)
    requires forall i :: 0 <= i < |p| ==> Diverge(p[i..], t)
    ensures Contains(p + b, t) <==> Contains(b, t)
    decreases |p|
  {
    if p != [] {
      assert p[0..] == p;
      DivergeExtended(p, b, t);
      assert (p + b)[1..] == p[1..] + b;
      forall i | 0 <= i < |p[1..]|
        ensures Diverge(p[1..][i..], t)
      {
        assert p[1..][i..] == p[i + 1..];
      }
      ContainsAfterPrefix(p[1..], b, t);
    } else {
      assert p + b == b;
    }
  }

  /** `parts.join(sep)` for a one-character separator. */
  function Join(parts: seq<string>, sep: char): string
    decreases |parts|
  {
    if |parts| == 0 then ""
    else if |parts| == 1 then parts[0]
    else parts[0] + [sep] + Join(parts[1..], sep)
  }

  /** `s.split(sep)` for a one-character separator: always at least one piece. */
  function SplitOn(s: string, sep: char): (pieces: seq<string>)
    ensures |pieces| >= 1
    ensures forall k :: 0 <= k < |pieces| ==> sep !in pieces[k]
    decreases |s|
  {
    if s == [] then [""]
    else if s[0] == sep then [""] + SplitOn(s[1..], sep)
    else
      var rest := SplitOn(s[1..], sep);
      [[s[0]] + rest[0]] + rest[1..]
  }

  /** Splitting a piece free of the separator, followed by the separator, peels off that piece. */
  lemma {:induction false} SplitOnPiece(p: string, rest: string, sep: char)
    requires sep !in p
    ensures SplitOn(p + [sep] + rest, sep) == [p] + SplitOn(rest, sep)
    decreases |p|
  {
    if p == [] {
      assert p + [sep] + rest == [sep] + rest;
      assert ([sep] + rest)[1..] == rest;
    } else {
      var s := p + [sep] + rest;
      assert s[0] == p[0] && s[0] != sep;
      assert s[1..] == p[1..] + [sep] + rest;
      SplitOnPiece(p[1..], rest, sep);
      assert [p[0]] + p[1..] == p;
    }
  }

  /** A separator-free string splits into itself alone. */
  lemma {:induction false} SplitOnWhole(p: string, sep: char)
    requires sep !in p
    ensures SplitOn(p, sep) == [p]
    decreases |p|
  {
    if p != [] {
      SplitOnWhole(p[1..], sep);
      assert [p[0]] + p[1..] == p;
    }
  }

  /** Join then split is the identity when no piece contains the separator. */
  lemma {:induction false} SplitJoin(parts: seq<string>, sep: char)
    requires |parts| >= 1
    requires forall k :: 0 <= k < |parts| ==> sep !in parts[k]
    ensures SplitOn(Join(parts, sep), sep) == parts
    decreases |parts|
  {
    if |parts| == 1 {
      SplitOnWhole(parts[0], sep);
    } else {
      SplitJoin(parts[1..], sep);
      SplitOnPiece(parts[0], Join(parts[1..], sep), sep);
      assert [parts[0]] + parts[1..] == parts;
    }
  }

  /** The decimal digit for `d`. */
  function DigitChar(d: nat): char
    requires d < 10
  {
    "0123456789"[d]
  }

  /** `String(n)` for a non-negative integer: its decimal digits, most significant first. */
  function DecimalString(n: nat): (r: string)
    ensures 1 <= |r|
    ensures forall k :: 0 <= k < |r| ==> '0' <= r[k] <= '9'
    decreases n
  {
    if n < 10 then [DigitChar(n)] else DecimalString(n / 10) + [DigitChar(n % 10)]
  }

  /** A three-digit number prints as three characters led by its hundreds digit. */
  lemma ThreeDigitDecimal(n: nat)
    requires 100 <= n < 1000
    ensures |DecimalString(n)| == 3 && DecimalString(n)[0] == DigitChar(n / 100)
  {
    assert DecimalString(n / 10) == DecimalString(n / 100) + [DigitChar((n / 10) % 10)];
  }
}
